=== FILE: README.md ===
# button-pwm-led in Dafny

A model of a Raspberry Pi 4 kernel-module project. Two buttons are polled
every millisecond, and a press counts only if it comes from a different
button than the last accepted one. Accepted presses go into a 100-slot
log, and the "speed" is the number of button changes among the presses of
the last 10 seconds. Three LEDs are driven by software PWM with a 2 ms
period, at duties of 0, 25, 50, 75 or 100 %. User-space clients read the
speed and write duties back.

The model covers:

- **The two polling drivers.**
  - `project_dev.c` exposes the character device `/dev/project_dev`.
    Writes have the form `"<led> <duty>"` and a read returns `"%d\n"`.
  - `sys/project_sys.c` exposes sysfs attributes under
    `/sys/kernel/project_sys`.
  - Both share `record_press`, `calculate_speed`, `btn_poll_cb` and the LED
    timer callbacks.
  - In the model:
    - `PressLog` is the log as a sequence.
    - `PressBuffer` is the fixed 100-slot array with its shifting and
      compacting loops, proved to compute exactly what `PressLog` defines.
    - `Poller` is the poll tick and the alternation filter, with an
      invariant kept under any interleaving of poll ticks and speed reads.
    - `Pwm` is the duty table and the toggling timer callback.
    - `CharDevice` and `SysfsDevice` are the two control surfaces.
- **The interrupt variant `project.c`** (`IrqAverage`). It keeps a running
  integer mean of the times between presses, taken from the 64-bit system
  timer, and has unchecked `dutyN` stores.
- **The three Rust clients.**
  - `SysClient` (`sys/main.rs`): a speed-to-bar-graph table.
  - `DevClient` (`dev/main.rs`): the same table over the char device.
  - `LevelClient` (`main.rs`): a single active LED chosen from
    `speed * 15 / 100`.

The decimal text that crosses the kernel/user boundary is modelled in
`Decimal`:

- what `%d` and `{}` print;
- what the kernel's `sscanf` `%d` accepts: leading white space, an optional
  `-`, then at least one digit;
- round-trip lemmas connecting the two.

The `Common` module holds:

- the fixed-width conversions: uint32 timestamps, u64 timer arithmetic and
  i32 overflow;
- Rust's truncating division.

The wall clock, the timer reading and the sampled GPIO levels are
parameters.

An event exactly 10 seconds old is kept: presses at t, t+1 and t+2, read
at t+11, give speed 2 (`PressLog.WindowExampleBoundary`).

## Model

| member | source | states |
|---|---|---|
| Common.ToU32 | project_dev.c:134 | the uint32 cast yields the unique value in [0, 2^32) congruent to the clock |
| Common.TruncDiv100 | main.rs:21 | i32 division by 100 rounds toward zero: remainder bounds for non-negative and negative dividends |
| Decimal.NatToString | project_dev.c:184 | printed digits are decimal digits with no leading zero |
| Decimal.IntToString | main.rs:55 | a negative number prints with a leading '-' followed by digits, a non-negative one with digits only |
| Decimal.ScanInt | project_dev.c:335 | a `%d` conversion consumes a non-empty prefix and stops at a non-digit |
| Decimal.ScanOne | sys/project_sys.c:198 | `"%d"` fails on a text with no digit; `ScanOneRoundTrip` gives the value it reads |
| Decimal.ScanTwo | project_dev.c:335 | the first number of a `"%d %d"` match is what `"%d"` reads; a text with no digit fails; `ScanTwoRoundTrip` gives the pair |
| Decimal.DigitRun | project_dev.c:335 | the digit run is maximal: every character before it is a digit and the next is not |
| Decimal.SpaceRun | project_dev.c:335 | the skipped white space is maximal |
| Decimal.DigitsValueOfNatToString | project_dev.c:184 | reading back the printed digits gives the original number |
| Decimal.DigitRunOfDigitsThen | project_dev.c:335 | `%d` stops exactly at the end of the printed digits when a non-digit follows |
| Decimal.ScanDigits | project_dev.c:335 | the digit part of a conversion yields a non-negative value and consumes at least one character |
| Decimal.ScanDigitsRoundTrip | project_dev.c:335 | the printed digits of a natural number, then a non-digit, read back as that number |
| Decimal.ScanIntRoundTrip | project_dev.c:335 | scanning the printed form of any integer returns it and leaves the rest unread |
| Decimal.ScanTwoRoundTrip | project_dev.c:335 | `"%d %d"` reads back exactly the pair a client formats as `"{} {}"` |
| Decimal.ScanOneRoundTrip | sys/project_sys.c:198 | `"%d"` reads back the value in the text `writeln!("{}")` produces |
| PressLog.Stamp | project_dev.c:134-138 | a stored event carries a uint32 timestamp and the pressed button |
| PressLog.Newest | project_dev.c:140-145 | the newest n events are the suffix of length min(n, len) |
| PressLog.Record | project_dev.c:132-147 | `record_press` keeps the log at most 100 long and equal to the newest 100 of the old log plus the new event |
| PressLog.RecordAll | project_dev.c:132-147 | any sequence of presses keeps the log within capacity |
| PressLog.StampAll | project_dev.c:134-138 | each offered press becomes its stamped event, in order |
| PressLog.NewestAppend | project_dev.c:140-145 | trimming to the newest n before appending does not change the newest n afterwards |
| PressLog.RecordAllKeepsNewest | project_dev.c:132-147 | after any presses the log is exactly the 100 most recent events |
| PressLog.Age | project_dev.c:159 | the age is `now_sec - timestamp` reduced mod 2^32: in uint32 range and congruent to the true difference |
| PressLog.FirstFresh | project_dev.c:157-163 | the start index is the first event aged at most 10 s: every earlier one is stale |
| PressLog.Purge | project_dev.c:156-173 | the purge keeps a suffix; everything dropped is stale and the kept part starts with a fresh event |
| PressLog.Transitions | project_dev.c:175-181 | the count of button changes never exceeds the number of events |
| PressLog.Speed | project_dev.c:175-183 | the speed counts button changes from the sentinel 0: at most the number of events, and at least 1 when the first id is real; `SpeedIsLengthIff` gives when it equals the length |
| PressLog.TransitionsIsLengthIff | project_dev.c:175-181 | every event counts exactly when the log alternates and its first id differs from the sentinel (both directions) |
| PressLog.SpeedIsLengthIff | project_dev.c:175-183 | the speed equals the number of events exactly when the log alternates and its first id is not 0 |
| PressLog.CalculateSpeed | project_dev.c:149-185 | the speed is at most the retained events, which are at most the previous events |
| PressLog.PurgeIdempotent | project_dev.c:156-173 | purging again at the same time drops nothing |
| PressLog.CalculateSpeedIdempotent | project_dev.c:149-185 | two `calculate_speed` calls at the same second agree |
| PressLog.AllStaleEmpties | project_dev.c:172-173 | when no event is fresh the log is emptied and the speed is 0 |
| PressLog.AgeOfTruncatedClocks | project_dev.c:159 | across a uint32 wrap of the seconds counter the age is still the true elapsed time |
| PressLog.FutureEventIsStale | project_dev.c:159 | an event dated after `now` wraps to a huge age and counts as stale (not fresh) |
| PressLog.StaleFrontIsDropped | project_dev.c:156-173 | a stale event at the front of the log is dropped, leaving what purging the rest leaves |
| PressLog.StaleBehindFreshIsKept | project_dev.c:156-183 | only a leading stale run is dropped: a stale event behind a fresh one is kept and counted in the speed |
| PressLog.ExampleLog | project_dev.c:132-147 | presses 1, 2, 1 at t, t+1, t+2 give the three expected events |
| PressLog.SmallAge | project_dev.c:159 | without a wrap, the uint32 age is the plain difference |
| PressLog.WindowExampleFresh | project_dev.c:149-185 | read at t+5, all three alternating presses count: speed 3 |
| PressLog.WindowExampleBoundary | project_dev.c:159 | read at t+11, only the first press has aged out (age 10 is still fresh): speed 2 |
| PressLog.WindowExampleExpired | project_dev.c:172-173 | read at t+13 every press is stale: empty log, speed 0 |
| PressBuffer.RecordPress | project_dev.c:132-147 | the array code, with its shift loop at capacity, leaves exactly the events `PressLog.Record` defines |
| PressBuffer.FindStart | project_dev.c:157-163 | the early-exit search returns the index of the first fresh slot, or `press_idx` when none is fresh |
| PressBuffer.Compact | project_dev.c:165-173 | the compaction (including its start-0 and start-at-end cases) leaves exactly the events from the start index on |
| PressBuffer.CountChanges | project_dev.c:175-181 | the counting loop returns the number of button-id changes from the sentinel 0 |
| PressBuffer.CalculateSpeed | project_dev.c:149-185 | the find-start, compact and count loops leave exactly `PressLog.Purge`'s events and return their button-change count |
| PressBuffer.FirstFreshUnique | project_dev.c:157-163 | the index the early-exit search stops at is the first fresh one |
| Poller.Offer | project_dev.c:193-199 | a press of the last accepted button changes nothing; a press of any other button is recorded into the log (`Record`, evicting the oldest at capacity) and becomes the last accepted button |
| Poller.Poll | project_dev.c:187-214 | the sampled levels are remembered, the last accepted button follows the falling edges (BTN2 checked after BTN1), and without an edge the log is unchanged |
| Poller.SpeedStep | project_dev.c:149-185 | a speed read purges the log and sets the speed to its change count, leaving the poll state alone |
| Poller.Apply | project_dev.c:187-214 | any single step keeps the log within capacity |
| Poller.Run | project_dev.c:187-214 | any interleaving of steps keeps the log within capacity |
| Poller.InitialInv | project_dev.c:68-77 | the module-load state satisfies the invariant (ids 1/2 only, alternating, ending with the last accepted button) |
| Poller.OfferPreservesInv | project_dev.c:195-198 | the alternation filter preserves the invariant |
| Poller.PollPreservesInv | project_dev.c:187-214 | a poll tick preserves the invariant |
| Poller.SpeedStepPreservesInv | project_dev.c:149-185 | a speed read preserves the invariant |
| Poller.RunPreservesInv | project_dev.c:187-214 | the invariant holds after any interleaving of poll ticks and speed reads |
| Poller.ReachableSpeedIsRetainedLength | project_dev.c:175-183 | in every reachable state the speed read equals the number of retained presses |
| Poller.Collapse | project_dev.c:195-206 | the accepted id stream is no longer than the offered one |
| Poller.OfferAll | project_dev.c:195-206 | offering presses keeps the log within capacity |
| Poller.Ids | project_dev.c:72-75 | the id projection keeps the log's length and ids |
| Poller.IdsAppend | project_dev.c:72-75 | the id projection distributes over concatenation |
| Poller.OfferIds | project_dev.c:195-198 | below capacity, one offer appends the button id exactly when it differs from the last accepted one |
| Poller.Edges | project_dev.c:193-207 | the buttons with a falling edge in this tick, each at most once, in increasing id order: BTN1 before BTN2 |
| Poller.PollOffersEdges | project_dev.c:187-211 | a tick is the filter applied to its falling edges in source order, followed by remembering the sampled levels; every accepted edge is recorded through `Record` |
| Poller.PollRecordsAcceptedEdges | project_dev.c:193-207 | below capacity, a tick appends to the log exactly its falling edges with repeats of the last accepted button removed |
| Poller.OfferAllCollapses | project_dev.c:195-206 | below capacity, the filter appends exactly the offered ids with each repeat of the previous id removed |
| Poller.CollapseExample | project_dev.c:195-206 | offered ids 1, 1, 2, 1, 1 collapse to 1, 2, 1 |
| Poller.AlternationExample | project_dev.c:195-206 | from module load, presses 1, 1, 2, 1, 1 record 1, 2, 1 |
| Pwm.DutyTiming | project_dev.c:341-348 | only 0, 25, 50, 75 and 100 are accepted; on + off is the 2 ms period and on is duty % of it |
| Pwm.Configure | project_dev.c:351 | configuring sets both durations and resets the state to off |
| Pwm.Fire | project_dev.c:95-106 | a firing flips the state, drives the pin to it, and re-arms for `on` after turning on and `off` after turning off |
| Pwm.FireTwice | project_dev.c:95-106 | two firings restore the channel and take exactly on + off |
| Pwm.FireNCycles | project_dev.c:95-106 | n firings flip the state n times, and an even number takes n/2 full periods |
| Pwm.ConfiguredChannelPeriod | project_dev.c:341-353 | after a write the LED goes on for duty % of 2 ms, then off for the rest |
| Pwm.ExtremeDutiesRearmImmediately | project_dev.c:342 | duty 0 re-arms with delay 0 after turning on, and duty 100 after turning off |
| CharDevice.Dispatch | project_dev.c:340-358 | an untabled duty or an LED outside 1..3 returns -EINVAL and changes nothing; otherwise only that LED is reconfigured and `length` is returned |
| CharDevice.DeviceWrite | project_dev.c:318-359 | as `Dispatch`, and a text that is not two integers is rejected with -EINVAL |
| CharDevice.DeviceRead | project_dev.c:292-315 | a read refreshes the speed and returns text that scans back to that speed |
| CharDevice.CommandRoundTrip | dev/main.rs:46-51 | the kernel parses a client's command back to the pair it formatted |
| CharDevice.Command | dev/main.rs:46-51 | the text `format!("{} {}", led, duty)`; `CommandRoundTrip` proves the driver reads it back as (led, duty) |
| CharDevice.CommandConfigures | dev/main.rs:46-51 | a client command with a tabled duty is accepted and configures exactly that LED |
| CharDevice.WriteThree | dev/main.rs:38-40 | commands to LEDs 1, 2 and 3 in turn leave each LED configured with its own duty |
| SysfsDevice.Led1Store | sys/project_sys.c:193-217 | bad text or an untabled duty returns -EINVAL with no change; a valid duty returns `count` and only resets LED1's state |
| SysfsDevice.Led2Store | sys/project_sys.c:221-226 | the LED2 store accepts anything and changes nothing |
| SysfsDevice.Led3Store | sys/project_sys.c:230-235 | the LED3 store accepts anything and changes nothing |
| SysfsDevice.Led1StoreIgnoresDuty | sys/project_sys.c:203-216 | any two valid duties have the same effect, and LED1 keeps zero durations from module load |
| SysfsDevice.Led1StoreFiftyExample | sys/project_sys.c:203-216 | writing 50 returns the byte count but leaves LED1's on time at 0, where the table gives 1 ms |
| SysfsDevice.LedStoreIntended | sys/project_sys.c:193-217 | the corrected store configures LED n from the table and leaves the other LEDs alone |
| SysfsDevice.IntendedStoreSetsDuty | sys/project_sys.c:203-216 | through the corrected store, LED n's on time is duty % of the period |
| SysfsDevice.SpeedShow | sys/project_sys.c:184-189 | a speed read refreshes the speed and returns its text and length; the text scans back to the speed |
| IrqAverage.Delta | project.c:86 | the u64 delta is the true difference when timer readings do not go backwards |
| IrqAverage.ButtonIsr | project.c:81-93 | every interrupt counts the press and stores its time; from the second press with a non-zero last time, the average is the floor of the updated total over the count; the time is a 64-bit reading |
| IrqAverage.SecondInterruptSetsFirstDelta | project.c:85-88 | with a non-zero first timer reading, the second press sets the average to the first delta (a zero reading counts as no press yet) |
| IrqAverage.AverageBounds | project.c:81-93 | with non-zero timer readings, after n >= 2 presses the average lies between the smallest and largest delta, and never exceeds the true mean |
| IrqAverage.AverageUnderestimatesExample | project.c:87 | deltas 1, 2, 0 (sum 3) leave the average at 0 |
| IrqAverage.DutyStore | project.c:48-52 | a parsed value is stored as is; on a failed parse the variable keeps its value |
| IrqAverage.DutyStoreUnchecked | project.c:21-22 | any integer written is stored, even one outside [MIN_DUTY, MAX_DUTY] |
| IrqAverage.DutyStoreFromLoad | project.c:22-52 | from the load value `duty1 = MIN_DUTY`, a smaller written duty replaces it, and a write without a number keeps MIN_DUTY |
| SysClient.MapSpeedToLeds | sys/main.rs:26-43 | every duty is in the table, and LED2 lights only when LED1 is full and LED3 only when LED2 is full |
| SysClient.Units | sys/main.rs:26-43 | the bar has at most 12 quarter steps |
| SysClient.MapIsBarGraph | sys/main.rs:26-43 | the table equals an independent bar graph of ceil(speed / 5) quarter steps, capped at 12 |
| SysClient.MapEnds | sys/main.rs:28-41 | speed 0 lights nothing and 56 or more lights all three fully |
| SysClient.MapMonotone | sys/main.rs:26-43 | each duty is non-decreasing in the speed |
| SysClient.MapSum | sys/main.rs:26-43 | up to 60, the three duties add up to 25 per started block of 5 |
| SysClient.LoopAsWrittenKeepsDurations | sys/main.rs:45-56 | against the handlers as written, an iteration never changes any LED's durations |
| SysClient.LoopIntendedShowsBarGraph | sys/main.rs:45-56 | against the corrected handlers, an iteration configures all three LEDs with the mapped duties |
| SysClient.DutyLine | sys/main.rs:20-24 | the line `writeln!(file, "{}", duty)` sends, which the kernel's `"%d"` reads back as the duty |
| SysClient.LoopAsWritten | sys/main.rs:45-56 | one iteration through the handlers as written; `LoopAsWrittenKeepsDurations` proves it changes no duration |
| SysClient.LoopIntended | sys/main.rs:45-56 | one iteration through the corrected handlers; `LoopIntendedShowsBarGraph` proves it shows the bar graph |
| SysClient.SplitLineSameEffect | sys/main.rs:45-56 | a duty line delivered as digits then a lone newline leaves the LEDs as one whole-line store does, for both handler versions; the newline store fails with -EINVAL |
| DevClient.DutiesFor | dev/main.rs:21-36 | every chosen duty is in the driver's table |
| DevClient.DutiesAgreeWithSysClient | dev/main.rs:21-36 | the table is the sysfs client's for speeds of 0 and up; a negative speed lights everything |
| DevClient.IterationConfiguresAll | dev/main.rs:21-40 | one iteration leaves each LED configured with its table duty |
| DevClient.Commands | dev/main.rs:38-40 | the three `set_led` commands, LED 1 to 3; `IterationConfiguresAll` proves what they configure |
| LevelClient.LevelToDuty | main.rs:36-46 | levels 0..4 give 25 % steps, anything else 0 |
| LevelClient.Level | main.rs:21 | the level is `speed * 15 / 100`, rounded toward zero for both signs (remainder bounds on each side), and is absent exactly when the i32 product overflows |
| LevelClient.Choose | main.rs:23-28 | levels 0..14 select LED level/5 + 1 at the duty of level mod 5; others give LED 1 at 0 |
| LevelClient.SelectRanges | main.rs:21-28 | speeds 0..99 give levels 0..14; 100 and above and all negatives give LED 1 at 0; the product overflows exactly outside ±143165576 |
| LevelClient.Select | main.rs:21-28 | whenever the level is defined the choice is an LED 1..3 with a table duty; `SelectRanges` gives the ranges |
| LevelClient.SelectExample | main.rs:21-28 | speed 99 gives LED 3 at 100, 33 gives LED 1 at 100, and 34 gives LED 2 at 0 |
| LevelClient.SetLedsLightsOne | main.rs:48-62 | after `set_leds`, the active LED runs the duty and the other two run duty 0 |
| LevelClient.SetLeds | main.rs:48-62 | three commands, LED 1 to 3; `SetLedsLightsOne` proves only the active LED is lit |
| LevelClient.IterationLightsSelected | main.rs:21-30 | for speeds 0..99, the chosen LED shows the level's duty and the others have no on time |

## Left out

- **Hardware.** GPIO register plumbing is not modelled: `ioremap`, the
  function-select writes and the set/clear register writes. The PWM pin
  level is kept as the channel's state.
- **Timers.** `hrtimer` scheduling is reduced to the delay each callback
  re-arms with. The 1 ms poll period is not modelled.
- **Module lifecycle and devices.** Not modelled: module init and exit,
  class and device creation, sysfs group creation, and IRQ requests. Their
  failure paths (ENOMEM, a failed `register_chrdev`) are left out too.
- **User copy.** `get_user`/`put_user` and -EFAULT are not modelled. The
  written bytes arrive as a string and the read offsets are left out.
- **`device_open`/`device_release`.** The exclusive-open atomic flag is not
  modelled. The `calculate_speed` call that `device_open` makes is the same
  as a read's.
- **Concurrency.** Poll ticks and reads are modelled as an arbitrary
  interleaving of atomic steps (`Poller.Run`). Preemption inside a step is
  not modelled.
- **One clock per tick.** A poll tick that records both buttons reads
  `ktime_get_real_seconds` once in each `record_press`. The model gives
  both calls the same clock value.
- **Logging.** `pr_info` and the client `println!` output are left out.
- **`device_write` buffer.** The copy loop can write past its 125-byte
  buffer when more than 124 bytes are written. This is not modelled: the
  whole written text is parsed.
- **Clients.** The Rust clients' file I/O, `expect` panics and sleeps are
  left out. The speed reaches the model as an integer; the `trim().parse()`
  fallback to 0 on unparsable text is not modelled.
- **`sscanf` overflow.** A `%d` conversion of digits beyond the `int` range
  is not modelled. `Decimal.ScanInt` returns the exact value.
- Decimal.IsSpace: only the ASCII white-space characters are skipped. The
  kernel's `isspace` also accepts byte 0xA0, so the kernel reads
  `"\xA050"` as 50 while the model rejects it.
- IrqAverage.ButtonIsr: the product `delta_avg_us * (press_count - 1)` and
  the sum are not wrapped at 2^64. `press_count` is unbounded rather than
  an `int` that can overflow.
- **`project.c` show handlers.** `speed_show`, `duty1_show`, `duty2_show`
  and `duty3_show` are plain `"%d"`/`"%llu"` prints of a variable and are
  not modelled separately. Apart from the show handlers nothing uses
  `duty1`..`duty3`; no PWM is driven from them.
- LevelClient.Level: an overflowing `speed * 15` is modelled as the panic
  of a debug build (None). The two's-complement wrap of a release build is
  not modelled.
- SysClient.MapSpeedToLeds: the client reads the speed as `u32` with
  `unwrap_or(0)`, so the model takes a `nat`. The 2^32 bound is not
  modelled.

## Findings

| source | as written | input that shows it | evidently intended | confidence | as-written member | corrected member |
|---|---|---|---|---|---|---|
| sys/project_sys.c:203-216 | `led1_store` validates the duty and computes `on`/`off`, but never assigns them to `led1_on`/`led1_off`; `led2_store` and `led3_store` (lines 221-235) have empty bodies | writing "50\n" to `led1` after module load returns 3 while LED1 keeps 0 ns on and 0 ns off | each store sets that LED's durations from the duty table, as `device_write` does in project_dev.c:351-353 | high (read from the code; not executed) | SysfsDevice.Led1Store | SysfsDevice.LedStoreIntended |

=== FILE: char_device.dfy ===
/** The control surface of the char-device driver (`/dev/project_dev`):
    `device_write` parses "<led> <duty>" and reconfigures one LED, and a
    read refreshes the speed and formats it as "%d\n". User-copy plumbing
    and offsets are not modelled; the written bytes arrive as a string. */
module CharDevice {
  import opened Common
  import opened Decimal
  import opened Pwm
  import opened Poller

  /** `device_write`'s result: the LEDs afterwards and the return value. */
  datatype WriteReply = WriteReply(bank: LedBank, ret: int)

  /** The two `switch`es of `device_write` once "%d %d" has matched: the
      duty table first, then the LED number. */
  function Dispatch(bank: LedBank, led: int, duty: int, length: int): (w: WriteReply)
    requires 0 <= length
    ensures w.ret == length || w.ret == -EINVAL
    ensures w.ret == length <==> ValidDuty(duty) && 1 <= led <= 3
    ensures w.ret != length ==> w.bank == bank
    ensures w.ret == length ==>
      && Led(w.bank, led) == Configure(DutyTiming(duty).value)
      && (forall n :: 1 <= n <= 3 && n != led ==> Led(w.bank, n) == Led(bank, n))
  {
    match DutyTiming(duty)
    case None => WriteReply(bank, -EINVAL)
    case Some(t) =>
      if led == 1 then WriteReply(bank.(led1 := Configure(t)), length)
      else if led == 2 then WriteReply(bank.(led2 := Configure(t)), length)
      else if led == 3 then WriteReply(bank.(led3 := Configure(t)), length)
      else WriteReply(bank, -EINVAL)
  }

  /** `device_write(buffer, length)`. A bad format, a duty outside the table
      or an LED number outside 1..3 returns -EINVAL and changes nothing; a
      good command sets that LED's durations, resets its state to off and
      returns `length`. */
  function DeviceWrite(bank: LedBank, input: string, length: int): (w: WriteReply)
    requires 0 <= length
    ensures var p := ScanTwo(input);
      && (w.ret == length || w.ret == -EINVAL)
      && (w.ret == length <==> p.Some? && ValidDuty(p.value.1) && 1 <= p.value.0 <= 3)
      && (w.ret != length ==> w.bank == bank)
      && (w.ret == length ==>
          && Led(w.bank, p.value.0) == Configure(DutyTiming(p.value.1).value)
          && (forall n :: 1 <= n <= 3 && n != p.value.0 ==> Led(w.bank, n) == Led(bank, n)))
  {
    var p := ScanTwo(input);
    if p.None? then WriteReply(bank, -EINVAL) else Dispatch(bank, p.value.0, p.value.1, length)
  }

  /** A read: `calculate_speed` at the given clock, which also prints the
      speed as "%d\n" into `read_buf`. */
  datatype ReadReply = ReadReply(meter: Speedometer, text: string)

  function DeviceRead(meter: Speedometer, clock: int): (r: ReadReply)
    ensures r.meter == SpeedStep(meter, clock)
    ensures ScanOne(r.text) == Some(r.meter.speed)
  {
    var m := SpeedStep(meter, clock);
    ScanOneRoundTrip(m.speed);
    ReadReply(m, IntToString(m.speed) + "\n")
  }

  /** The command a client writes: "<led> <duty>" (`format!("{} {}")`). */
  function Command(led: int, duty: int): string
  {
    IntToString(led) + " " + IntToString(duty)
  }

  /** `device_write`'s "%d %d" reads a command back as the pair written. */
  lemma CommandRoundTrip(led: int, duty: int)
    ensures ScanTwo(Command(led, duty)) == Some((led, duty))
  {
    ScanTwoRoundTrip(led, duty);
  }

  /** A command for LED 1..3 with a duty from the table is accepted and
      configures exactly that LED. */
  lemma CommandConfigures(bank: LedBank, led: int, duty: int)
    requires 1 <= led <= 3 && ValidDuty(duty)
    ensures var w := DeviceWrite(bank, Command(led, duty), |Command(led, duty)|);
      && w.ret == |Command(led, duty)|
      && Led(w.bank, led) == Configure(DutyTiming(duty).value)
      && (forall n :: 1 <= n <= 3 && n != led ==> Led(w.bank, n) == Led(bank, n))
  {
    CommandRoundTrip(led, duty);
  }

  /** Writes each command in turn, each with its own length, as separate
      `write` calls; returns the LEDs afterwards. */
  function WriteAll(bank: LedBank, cmds: seq<string>): LedBank
    decreases |cmds|
  {
    if |cmds| == 0 then bank
    else WriteAll(DeviceWrite(bank, cmds[0], |cmds[0]|).bank, cmds[1..])
  }

  /** Three writes in a row, whatever the commands. */
  lemma WriteAllThree(bank: LedBank, c1: string, c2: string, c3: string, b3: LedBank)
    requires DeviceWrite(DeviceWrite(DeviceWrite(bank, c1, |c1|).bank, c2, |c2|).bank, c3, |c3|).bank == b3
    ensures WriteAll(bank, [c1, c2, c3]) == b3
  {
    var b1 := DeviceWrite(bank, c1, |c1|).bank;
    var b2 := DeviceWrite(b1, c2, |c2|).bank;
    assert WriteAll(bank, [c1, c2, c3]) == WriteAll(b1, [c2, c3]) by {
      assert [c1, c2, c3][1..] == [c2, c3];
    }
    assert WriteAll(b1, [c2, c3]) == WriteAll(b2, [c3]) by {
      assert [c2, c3][1..] == [c3];
    }
    assert WriteAll(b2, [c3]) == b3 by {
      assert [c3][1..] == [];
    }
  }

  /** Three accepted commands for LEDs 1, 2 and 3 in turn leave each LED
      configured with its own duty, whatever the LEDs were before. */
  lemma WriteThree(bank: LedBank, d1: int, d2: int, d3: int)
    requires ValidDuty(d1) && ValidDuty(d2) && ValidDuty(d3)
    ensures WriteAll(bank, [Command(1, d1), Command(2, d2), Command(3, d3)]) == LedBank(
      Configure(DutyTiming(d1).value), Configure(DutyTiming(d2).value), Configure(DutyTiming(d3).value))
  {
    var c1, c2, c3 := Command(1, d1), Command(2, d2), Command(3, d3);
    var b1 := DeviceWrite(bank, c1, |c1|).bank;
    var b2 := DeviceWrite(b1, c2, |c2|).bank;
    var b3 := DeviceWrite(b2, c3, |c3|).bank;
    assert b3 == LedBank(Configure(DutyTiming(d1).value), Configure(DutyTiming(d2).value), Configure(DutyTiming(d3).value)) by {
      CommandConfigures(bank, 1, d1);
      CommandConfigures(b1, 2, d2);
      CommandConfigures(b2, 3, d3);
    }
    WriteAllThree(bank, c1, c2, c3, b3);
  }
}

=== FILE: common.dfy ===
/** Fixed-width integer helpers and the Option type shared by every module.
    Dafny integers are unbounded; the C and Rust sources work on uint32_t,
    u64 and i32, so every place where the width matters goes through the
    functions here. */
module Common {

  datatype Option<+T> = None | Some(value: T)

  const U32_MODULUS: int := 0x1_0000_0000
  const U64_MODULUS: int := 0x1_0000_0000_0000_0000
  const I32_MIN: int := -0x8000_0000
  const I32_MAX: int := 0x7fff_ffff

  /** Kernel errno for an invalid argument; handlers return -EINVAL. */
  const EINVAL: int := 22

  predicate IsU32(x: int) { 0 <= x < U32_MODULUS }
  predicate IsU64(x: int) { 0 <= x < U64_MODULUS }
  predicate IsI32(x: int) { I32_MIN <= x <= I32_MAX }

  /** Conversion to uint32_t: the unique value in range congruent to x. */
  function ToU32(x: int): (r: int)
    ensures IsU32(r)
    ensures (x - r) % U32_MODULUS == 0
  {
    x % U32_MODULUS
  }

  /** Conversion to u64: the unique value in range congruent to x. */
  function ToU64(x: int): (r: int)
    ensures IsU64(r)
    ensures (x - r) % U64_MODULUS == 0
  {
    x % U64_MODULUS
  }

  /** Rust's `n / 100` on i32: integer division rounding toward zero
      (Dafny's own `/` rounds toward negative infinity for negative n). */
  function TruncDiv100(n: int): (q: int)
    ensures n >= 0 ==> 0 <= q && 0 <= n - q * 100 < 100
    ensures n < 0 ==> q <= 0 && 0 <= q * 100 - n < 100
  {
    if n >= 0 then n / 100 else -((-n) / 100)
  }

  /** Concatenation regroups freely; stated once for every element type so
      that proofs about composed texts and logs can name the step. */
  lemma AppendAssoc<T>(a: seq<T>, b: seq<T>, c: seq<T>)
    ensures a + b + c == a + (b + c)
  {
  }
}

=== FILE: decimal.dfy ===
/** Decimal text: the `"%d"`/`"{}"` formatting used by the user-space
    clients and the kernel modules' `sprintf`, and the kernel `sscanf`
    conversion `%d` that reads it back. */
module Decimal {
  import opened Common

  predicate IsDigit(c: char) { '0' <= c <= '9' }

  /** The kernel's `isspace` on ASCII: space, \t, \n, \v, \f, \r. */
  predicate IsSpace(c: char) { c == ' ' || ('\t' <= c <= '\r') }

  predicate AllDigits(s: string) { forall i :: 0 <= i < |s| ==> IsDigit(s[i]) }

  function DigitChar(d: int): (c: char)
    requires 0 <= d < 10
    ensures IsDigit(c)
    ensures c as int - '0' as int == d
  {
    ('0' as int + d) as char
  }

  /** Decimal digits of n, most significant first, no leading zeros. */
  function NatToString(n: nat): (s: string)
    ensures 1 <= |s|
    ensures AllDigits(s)
    ensures |s| > 1 ==> s[0] != '0'
    decreases n
  {
    if n < 10 then [DigitChar(n)] else NatToString(n / 10) + [DigitChar(n % 10)]
  }

  /** What `%d` (C) and `{}` (Rust) print for an integer. */
  function IntToString(n: int): (s: string)
    ensures 1 <= |s|
    ensures n < 0 <==> s[0] == '-'
    ensures n >= 0 ==> AllDigits(s)
    ensures n < 0 ==> AllDigits(s[1..])
  {
    if n < 0 then "-" + NatToString(-n) else NatToString(n)
  }

  /** Value of a string of decimal digits, read left to right. */
  function DigitsValue(s: string): nat
    requires AllDigits(s)
  {
    if |s| == 0 then 0
    else DigitsValue(s[..|s| - 1]) * 10 + (s[|s| - 1] as int - '0' as int)
  }

  /** Length of the longest prefix of s satisfying IsDigit. */
  function DigitRun(s: string): (k: nat)
    ensures k <= |s|
    ensures forall i :: 0 <= i < k ==> IsDigit(s[i])
    ensures k < |s| ==> !IsDigit(s[k])
  {
    if |s| > 0 && IsDigit(s[0]) then 1 + DigitRun(s[1..]) else 0
  }

  /** Length of the longest prefix of s satisfying IsSpace. */
  function SpaceRun(s: string): (k: nat)
    ensures k <= |s|
    ensures forall i :: 0 <= i < k ==> IsSpace(s[i])
    ensures k < |s| ==> !IsSpace(s[k])
  {
    if |s| > 0 && IsSpace(s[0]) then 1 + SpaceRun(s[1..]) else 0
  }

  /** A successful conversion: the value and the unread remainder. */
  datatype Scan = Scan(value: int, rest: string)

  /** The digits part of a conversion: at least one digit, all of them
      taken. */
  function ScanDigits(t: string): (r: Option<Scan>)
    ensures r.Some? ==> 0 <= r.value.value
    ensures r.Some? ==> |r.value.rest| < |t| && r.value.rest == t[|t| - |r.value.rest|..]
    ensures r.Some? ==> |r.value.rest| == 0 || !IsDigit(r.value.rest[0])
  {
    var k := DigitRun(t);
    if k == 0 then None else Some(Scan(DigitsValue(t[..k]), t[k..]))
  }

  /** One kernel `sscanf` `%d` conversion: skip white space, accept an
      optional '-', then require at least one digit and take them all. */
  function ScanInt(s: string): (r: Option<Scan>)
    ensures r.Some? ==> |r.value.rest| < |s| && r.value.rest == s[|s| - |r.value.rest|..]
    ensures r.Some? ==> |r.value.rest| == 0 || !IsDigit(r.value.rest[0])
  {
    var t := s[SpaceRun(s)..];
    if |t| > 0 && t[0] == '-' then
      match ScanDigits(t[1..])
      case None => None
      case Some(u) => Some(Scan(0 - u.value, u.rest))
    else ScanDigits(t)
  }

  /** `sscanf(buf, "%d", &x) == 1`: the parsed value, or None. */
  function ScanOne(s: string): (r: Option<int>)
    ensures (forall i :: 0 <= i < |s| ==> !IsDigit(s[i])) ==> r.None?
  {
    match ScanInt(s)
    case None => None
    case Some(a) => Some(a.value)
  }

  /** `sscanf(buf, "%d %d", &x, &y) == 2`. The blank in the format skips
      any amount of white space, which the second `%d` would skip anyway. */
  function ScanTwo(s: string): (r: Option<(int, int)>)
    ensures r.Some? ==> ScanOne(s) == Some(r.value.0)
    ensures (forall i :: 0 <= i < |s| ==> !IsDigit(s[i])) ==> r.None?
  {
    match ScanInt(s)
    case None => None
    case Some(a) =>
      match ScanInt(a.rest[SpaceRun(a.rest)..])
      case None => None
      case Some(b) => Some((a.value, b.value))
  }

  lemma {:induction false} DigitsValueOfNatToString(n: nat)
    ensures DigitsValue(NatToString(n)) == n
    decreases n
  {
    var s := NatToString(n);
    if n >= 10 {
      DigitsValueOfNatToString(n / 10);
      assert s[..|s| - 1] == NatToString(n / 10);
    }
  }

  lemma {:induction false} DigitRunOfDigitsThen(d: string, rest: string)
    requires AllDigits(d)
    requires |rest| == 0 || !IsDigit(rest[0])
    ensures DigitRun(d + rest) == |d|
    decreases |d|
  {
    if |d| > 0 {
      assert (d + rest)[1..] == d[1..] + rest;
      DigitRunOfDigitsThen(d[1..], rest);
    } else {
      assert d + rest == rest;
    }
  }

  /** The digits of n followed by text that does not continue them scan
      back to n, leaving that text. */
  lemma ScanDigitsRoundTrip(n: nat, rest: string)
    requires |rest| == 0 || !IsDigit(rest[0])
    ensures ScanDigits(NatToString(n) + rest) == Some(Scan(n, rest))
  {
    var d := NatToString(n);
    var t := d + rest;
    DigitRunOfDigitsThen(d, rest);
    assert t[..|d|] == d;
    assert t[|d|..] == rest;
    DigitsValueOfNatToString(n);
  }

  /** Text starting with a digit is read as a plain digit run. */
  lemma ScanIntOfDigitFirst(s: string)
    requires |s| > 0 && IsDigit(s[0])
    ensures ScanInt(s) == ScanDigits(s)
  {
    assert SpaceRun(s) == 0;
    assert s[0..] == s;
  }

  /** Text starting with '-' is read as the negated digit run after it. */
  lemma ScanIntOfMinus(t: string)
    ensures ScanInt("-" + t) ==
      match ScanDigits(t)
      case None => None
      case Some(u) => Some(Scan(0 - u.value, u.rest))
  {
    var s := "-" + t;
    assert SpaceRun(s) == 0;
    assert s[0..] == s;
    assert s[1..] == t;
  }

  /** A non-negative number's digits, then a non-digit: `%d` reads the
      number. */
  lemma ScanNatThen(m: nat, rest: string)
    requires |rest| == 0 || !IsDigit(rest[0])
    ensures ScanInt(NatToString(m) + rest) == Some(Scan(m, rest))
  {
    var s := NatToString(m) + rest;
    assert s[0] == NatToString(m)[0];
    ScanIntOfDigitFirst(s);
    ScanDigitsRoundTrip(m, rest);
  }

  lemma ScanMinusOf(x: string, m: nat, rest: string)
    requires ScanDigits(x) == Some(Scan(m, rest))
    ensures ScanInt("-" + x) == Some(Scan(0 - m, rest))
  {
    ScanIntOfMinus(x);
  }

  /** '-', a number's digits, then a non-digit: `%d` reads the negation. */
  lemma ScanNegThen(m: nat, rest: string)
    requires |rest| == 0 || !IsDigit(rest[0])
    ensures ScanInt("-" + (NatToString(m) + rest)) == Some(Scan(0 - m, rest))
  {
    ScanDigitsRoundTrip(m, rest);
    ScanMinusOf(NatToString(m) + rest, m, rest);
  }

  /** Round trip: scanning the printed form of n returns n and leaves the
      following text unread, provided that text does not continue the number. */
  lemma ScanIntRoundTrip(n: int, rest: string)
    requires |rest| == 0 || !IsDigit(rest[0])
    ensures ScanInt(IntToString(n) + rest) == Some(Scan(n, rest))
  {
    if n < 0 {
      ScanNegThen(-n, rest);
      AppendAssoc("-", NatToString(-n), rest);
    } else {
      ScanNatThen(n, rest);
    }
  }

  lemma SpaceThenNumber(b: int)
    ensures (" " + IntToString(b))[SpaceRun(" " + IntToString(b))..] == IntToString(b)
  {
    var rest := " " + IntToString(b);
    assert !IsSpace(rest[1]);
    assert rest[1..] == IntToString(b);
    assert SpaceRun(rest[1..]) == 0;
  }

  /** Two successful conversions separated by white space make `"%d %d"`
      succeed with both values. */
  lemma ScanTwoOf(x: string, a: int, rest: string, y: string, b: int, tail: string)
    requires ScanInt(x) == Some(Scan(a, rest))
    requires rest[SpaceRun(rest)..] == y
    requires ScanInt(y) == Some(Scan(b, tail))
    ensures ScanTwo(x) == Some((a, b))
  {
  }

  /** `sscanf("%d %d")` reads back exactly the pair printed by `"{} {}"`. */
  lemma ScanTwoRoundTrip(a: int, b: int)
    ensures ScanTwo(IntToString(a) + " " + IntToString(b)) == Some((a, b))
  {
    var rest := " " + IntToString(b);
    AppendAssoc(IntToString(a), " ", IntToString(b));
    ScanIntRoundTrip(a, rest);
    SpaceThenNumber(b);
    ScanIntRoundTrip(b, "");
    assert IntToString(b) + "" == IntToString(b);
    ScanTwoOf(IntToString(a) + rest, a, rest, IntToString(b), b, "");
  }

  /** `sscanf("%d")` reads back a value printed by `writeln!("{}")`. */
  lemma ScanOneRoundTrip(n: int)
    ensures ScanOne(IntToString(n) + "\n") == Some(n)
  {
    ScanIntRoundTrip(n, "\n");
  }
}

=== FILE: dev_client.dfy ===
/** The char-device client (`dev/main.rs`): the speed read from the device
    as an i32 selects three duties from the same table as the sysfs client,
    and each iteration writes "<led> <duty>" for LEDs 1, 2, 3 in order. */
module DevClient {
  import opened Common
  import opened Pwm
  import opened CharDevice
  import SysClient

  /** The `match speed` of `main`; negative speeds fall to `_`. */
  function DutiesFor(speed: int): (r: SysClient.Duties)
    ensures ValidDuty(r.0) && ValidDuty(r.1) && ValidDuty(r.2)
  {
    if speed == 0 then (0, 0, 0)
    else if 1 <= speed <= 5 then (25, 0, 0)
    else if 6 <= speed <= 10 then (50, 0, 0)
    else if 11 <= speed <= 15 then (75, 0, 0)
    else if 16 <= speed <= 20 then (100, 0, 0)
    else if 21 <= speed <= 25 then (100, 25, 0)
    else if 26 <= speed <= 30 then (100, 50, 0)
    else if 31 <= speed <= 35 then (100, 75, 0)
    else if 36 <= speed <= 40 then (100, 100, 0)
    else if 41 <= speed <= 45 then (100, 100, 25)
    else if 46 <= speed <= 50 then (100, 100, 50)
    else if 51 <= speed <= 55 then (100, 100, 75)
    else if 56 <= speed <= 60 then (100, 100, 100)
    else (100, 100, 100)
  }

  /** For speeds of 0 and above the table is `map_speed_to_leds`; a negative
      speed lights all three LEDs fully. */
  lemma DutiesAgreeWithSysClient(speed: int)
    ensures speed >= 0 ==> DutiesFor(speed) == SysClient.MapSpeedToLeds(speed)
    ensures speed < 0 ==> DutiesFor(speed) == (100, 100, 100)
  {
  }

  /** The commands of one iteration: `set_led(1, ..)`, `set_led(2, ..)`,
      `set_led(3, ..)`. */
  function Commands(speed: int): (cmds: seq<string>)
    ensures |cmds| == 3
  {
    var d := DutiesFor(speed);
    [Command(1, d.0), Command(2, d.1), Command(3, d.2)]
  }

  /** Every command of an iteration is accepted, so afterwards each LED runs
      the duty the table chose for it, starting from the off state. */
  lemma IterationConfiguresAll(bank: LedBank, speed: int)
    ensures var d := DutiesFor(speed);
      WriteAll(bank, Commands(speed)) == LedBank(
        Configure(DutyTiming(d.0).value), Configure(DutyTiming(d.1).value), Configure(DutyTiming(d.2).value))
  {
    var d := DutiesFor(speed);
    WriteThree(bank, d.0, d.1, d.2);
  }
}

=== FILE: irq_average.dfy ===
/** The interrupt variant (`project.c`): `button_isr` keeps a running
    integer mean of the times between presses, read from the 64-bit system
    timer (passed in as `now`), and the unchecked `dutyN_store` handlers. */
module IrqAverage {
  import opened Common
  import opened Decimal

  /** `delta_avg_us`, `press_count`, `last_hw_time`. */
  datatype IrqState = IrqState(deltaAvgUs: nat, pressCount: int, lastHwTime: int)

  const Initial: IrqState := IrqState(0, 0, 0)

  /** u64 subtraction `now - last_hw_time`. */
  function Delta(now: int, last: int): (d: int)
    ensures IsU64(d)
    ensures IsU64(now) && IsU64(last) && last <= now ==> d == now - last
  {
    ToU64(now - last)
  }

  /** `button_isr`: with k = press_count >= 1 and a non-zero previous time,
      the average becomes floor((avg * (k - 1) + delta) / k); in every case
      the press is counted and its time remembered. */
  function ButtonIsr(s: IrqState, now: int): (r: IrqState)
    requires IsU64(now)
    ensures r.pressCount == s.pressCount + 1
    ensures r.lastHwTime == now
    ensures s.pressCount <= 0 || s.lastHwTime == 0 ==> r.deltaAvgUs == s.deltaAvgUs
    ensures s.pressCount > 0 && s.lastHwTime != 0 ==>
      var k := s.pressCount;
      var total := s.deltaAvgUs * (k - 1) + Delta(now, s.lastHwTime);
      r.deltaAvgUs * k <= total < (r.deltaAvgUs + 1) * k
  {
    if s.pressCount > 0 && s.lastHwTime != 0 then
      var k := s.pressCount;
      var total := s.deltaAvgUs * (k - 1) + Delta(now, s.lastHwTime);
      FloorDiv(s.deltaAvgUs, k, Delta(now, s.lastHwTime));
      IrqState(total / k, k + 1, now)
    else IrqState(s.deltaAvgUs, s.pressCount + 1, now)
  }

  /** The running-average division: a non-negative total and its floor
      quotient by k. */
  lemma FloorDiv(avg: nat, k: int, delta: nat)
    requires k >= 1
    ensures var total := avg * (k - 1) + delta;
      && 0 <= total
      && (total / k) * k <= total < (total / k + 1) * k
  {
    var total := avg * (k - 1) + delta;
    MulMono(0, avg, k - 1);
    var q := total / k;
    assert total == q * k + total % k;
    assert (q + 1) * k == q * k + k;
  }

  /** Timer readings: each is assembled from two 32-bit registers. */
  predicate Readings(times: seq<int>)
  {
    forall i :: 0 <= i < |times| ==> IsU64(times[i])
  }

  /** Interrupts at the given timer readings, oldest first. */
  function IsrRun(s: IrqState, times: seq<int>): IrqState
    requires Readings(times)
    decreases |times|
  {
    if |times| == 0 then s else ButtonIsr(IsrRun(s, times[..|times| - 1]), times[|times| - 1])
  }

  /** The delta the i-th interrupt (i >= 1) measures. */
  function DeltaAt(times: seq<int>, i: int): int
    requires 1 <= i < |times|
  {
    Delta(times[i], times[i - 1])
  }

  /** Sum of the deltas measured by interrupts 1..n-1. */
  function DeltaSum(times: seq<int>, n: int): int
    requires 1 <= n <= |times|
    decreases n
  {
    if n == 1 then 0 else DeltaSum(times, n - 1) + DeltaAt(times, n - 1)
  }

  /** The second interrupt sets the average to the first delta. */
  lemma SecondInterruptSetsFirstDelta(t1: int, t2: int)
    requires IsU64(t1) && IsU64(t2) && t1 != 0
    ensures IsrRun(Initial, [t1, t2]).deltaAvgUs == Delta(t2, t1)
    ensures IsrRun(Initial, [t1, t2]).pressCount == 2
  {
    assert [t1, t2][..1] == [t1];
    assert [t1][..0] == [];
    assert IsrRun(Initial, [t1]) == IrqState(0, 1, t1);
  }

  lemma MulMono(a: int, b: int, c: int)
    requires a <= b && 0 <= c
    ensures a * c <= b * c
  {
    assert b * c - a * c == (b - a) * c;
  }

  /** A weighted total of values in [lo, hi] lies in [lo * k, hi * k]. */
  lemma TotalBounds(prev: int, k: int, delta: int, lo: int, hi: int)
    requires k >= 1
    requires k == 1 || lo <= prev <= hi
    requires lo <= delta <= hi
    ensures lo * k <= prev * (k - 1) + delta <= hi * k
  {
    if k == 1 {
      assert prev * (k - 1) == 0;
    } else {
      MulMono(lo, prev, k - 1);
      MulMono(prev, hi, k - 1);
    }
    assert lo * (k - 1) + lo == lo * k;
    assert hi * (k - 1) + hi == hi * k;
  }

  /** The floor quotient of a total between lo * k and hi * k is in [lo, hi]. */
  lemma FloorBetween(total: int, k: int, avg: int, lo: int, hi: int)
    requires k >= 1
    requires lo * k <= total <= hi * k
    requires avg * k <= total < (avg + 1) * k
    ensures lo <= avg <= hi
  {
    if avg < lo {
      MulMono(avg + 1, lo, k);
      assert false;
    }
    if avg > hi {
      MulMono(hi + 1, avg, k);
      assert false;
    }
  }

  /** A floor division of a total between k*lo and k*hi stays in [lo, hi]. */
  lemma AverageStep(prev: int, k: int, delta: int, avg: int, lo: int, hi: int)
    requires k >= 1
    requires k == 1 || lo <= prev <= hi
    requires lo <= delta <= hi
    requires avg * k <= prev * (k - 1) + delta < (avg + 1) * k
    ensures lo <= avg <= hi
  {
    TotalBounds(prev, k, delta, lo, hi);
    FloorBetween(prev * (k - 1) + delta, k, avg, lo, hi);
  }

  /** With non-zero timer readings, after n >= 2 interrupts the average lies
      between the smallest and largest delta measured (so a constant delta d
      keeps the average at d), and never exceeds the true mean: integer
      truncation only drags it down. */
  lemma {:induction false} AverageBounds(times: seq<int>, n: int, lo: int, hi: int)
    requires 1 <= n <= |times|
    requires Readings(times)
    requires forall i :: 0 <= i < |times| ==> times[i] != 0
    requires forall i :: 1 <= i < |times| ==> lo <= DeltaAt(times, i) <= hi
    ensures IsrRun(Initial, times[..n]).pressCount == n
    ensures IsrRun(Initial, times[..n]).lastHwTime == times[n - 1]
    ensures n >= 2 ==> lo <= IsrRun(Initial, times[..n]).deltaAvgUs <= hi
    ensures IsrRun(Initial, times[..n]).deltaAvgUs * (n - 1) <= DeltaSum(times, n)
    decreases n
  {
    var prefix := times[..n];
    assert prefix[..n - 1] == times[..n - 1];
    if n == 1 {
      assert times[..0] == [];
    } else {
      AverageBounds(times, n - 1, lo, hi);
      var s := IsrRun(Initial, times[..n - 1]);
      var r := IsrRun(Initial, prefix);
      assert r == ButtonIsr(s, times[n - 1]);
      var k := n - 1;
      var d := DeltaAt(times, n - 1);
      AverageStep(s.deltaAvgUs, k, d, r.deltaAvgUs, lo, hi);
      assert r.deltaAvgUs * k <= s.deltaAvgUs * (k - 1) + d;
    }
  }

  /** Deltas 1, 2, 0 (mean 1) leave the average at 0. */
  lemma AverageUnderestimatesExample()
    ensures IsrRun(Initial, [1, 2, 4, 4]).deltaAvgUs == 0
    ensures DeltaSum([1, 2, 4, 4], 4) == 3
  {
    var ts := [1, 2, 4, 4];
    assert ts[..3] == [1, 2, 4];
    assert ts[..3][..2] == [1, 2];
    assert ts[..3][..2][..1] == [1];
    assert [1][..0] == [];
    assert IsrRun(Initial, [1]) == IrqState(0, 1, 1);
    assert IsrRun(Initial, [1, 2]) == IrqState(1, 2, 2);
    assert IsrRun(Initial, [1, 2, 4]) == IrqState(1, 3, 4);
  }

  /** `dutyN_store`: "%d" is parsed straight into the variable with no range
      check (MIN_DUTY and MAX_DUTY are never consulted); on a failed match
      the variable keeps its value. The handler always returns `count`. */
  function DutyStore(duty: int, input: string): (r: int)
    ensures ScanOne(input).Some? ==> r == ScanOne(input).value
    ensures ScanOne(input).None? ==> r == duty
  {
    match ScanOne(input)
    case Some(v) => v
    case None => duty
  }

  const MAX_DUTY: int := 100
  const MIN_DUTY: int := 10

  /** `duty1`, `duty2`, `duty3` at module load. */
  const InitialDuties: (int, int, int) := (MIN_DUTY, 0, 0)

  /** Any integer written is stored, in or out of [MIN_DUTY, MAX_DUTY]. */
  lemma DutyStoreUnchecked(duty: int, v: int)
    ensures DutyStore(duty, IntToString(v) + "\n") == v
  {
    ScanOneRoundTrip(v);
  }

  /** From module load, writing a duty below MIN_DUTY replaces `duty1`'s
      load value MIN_DUTY with it, and a write that holds no number leaves
      MIN_DUTY in place. */
  lemma DutyStoreFromLoad(v: int)
    requires v < MIN_DUTY
    ensures DutyStore(InitialDuties.0, IntToString(v) + "\n") == v
    ensures DutyStore(InitialDuties.0, "") == MIN_DUTY
  {
    DutyStoreUnchecked(InitialDuties.0, v);
  }
}

=== FILE: level_client.dfy ===
/** The single-LED client (`main.rs`): the speed becomes a level
    `speed * 15 / 100` in i32, each block of five levels selects one LED,
    and `set_leds` writes the level's duty to that LED and 0 to the others.
    The i32 product is checked: an overflow panics, as in a debug build. */
module LevelClient {
  import opened Common
  import opened Decimal
  import opened Pwm
  import opened CharDevice

  /** `level_to_duty`. */
  function LevelToDuty(level: int): (d: int)
    ensures 0 <= level <= 4 ==> d == 25 * level
    ensures !(0 <= level <= 4) ==> d == 0
    ensures ValidDuty(d)
  {
    match level
    case 0 => 0
    case 1 => 25
    case 2 => 50
    case 3 => 75
    case 4 => 100
    case _ => 0
  }

  /** `(speed * 15) / 100` in i32; None when the product overflows. */
  function Level(speed: int): (r: Option<int>)
    requires IsI32(speed)
    ensures r.None? <==> !IsI32(speed * 15)
    ensures r.Some? && speed >= 0 ==> r.value * 100 <= speed * 15 < (r.value + 1) * 100
    ensures r.Some? && speed < 0 ==> r.value <= 0 && 0 <= r.value * 100 - speed * 15 < 100
  {
    var product := speed * 15;
    if IsI32(product) then Some(TruncDiv100(product)) else None
  }

  /** The `match level` of `main`: (LED, duty). */
  function Choose(level: int): (r: (int, int))
    ensures 0 <= level <= 14 ==> r == (level / 5 + 1, LevelToDuty(level % 5))
    ensures !(0 <= level <= 14) ==> r == (1, 0)
  {
    if 0 <= level <= 4 then (1, LevelToDuty(level))
    else if 5 <= level <= 9 then (2, LevelToDuty(level - 5))
    else if 10 <= level <= 14 then (3, LevelToDuty(level - 10))
    else (1, 0)
  }

  /** The choice for a speed read as i32, or None where the program panics. */
  function Select(speed: int): (r: Option<(int, int)>)
    requires IsI32(speed)
    ensures r.Some? ==> 1 <= r.value.0 <= 3 && ValidDuty(r.value.1)
  {
    match Level(speed)
    case None => None
    case Some(level) => Some(Choose(level))
  }

  /** Speeds 0..99 give levels 0..14: LED (level / 5) + 1 at the duty of
      level mod 5; speeds from 100 up, and every negative speed, give LED 1
      at duty 0, until the product overflows. */
  lemma SelectRanges(speed: int)
    requires IsI32(speed)
    ensures 0 <= speed <= 99 ==> Level(speed).Some? && 0 <= Level(speed).value <= 14
    ensures 0 <= speed <= 99 ==> Select(speed) == Some(Choose(Level(speed).value))
    ensures IsI32(speed * 15) && (speed >= 100 || speed < 0) ==> Select(speed) == Some((1, 0))
    ensures -143165576 <= speed <= 143165576 <==> Select(speed).Some?
  {
  }

  /** Speed 99 is the top level (LED 3 fully on); 33 is LED 1 fully on;
      34 is the first level of LED 2, at duty 0, so no LED is lit. */
  lemma SelectExample()
    ensures Select(99) == Some((3, 100))
    ensures Select(33) == Some((1, 100))
    ensures Select(34) == Some((2, 0))
  {
  }

  /** The duty `set_leds` gives LED n: the duty for the active LED, else 0. */
  function Share(active: int, duty: int, n: int): int
  {
    if n == active then duty else 0
  }

  /** The commands of `set_leds(active, duty)`, in the order 1, 2, 3:
      "<n> <duty>" for the active LED and "<n> 0" for the others. */
  function SetLeds(active: int, duty: int): (cmds: seq<string>)
    ensures |cmds| == 3
  {
    [Command(1, Share(active, duty, 1)), Command(2, Share(active, duty, 2)), Command(3, Share(active, duty, 3))]
  }

  /** After the writes of `set_leds(active, duty)` with a table duty, the
      active LED runs that duty and the other two are held off (duty 0),
      whatever the LEDs were before. */
  lemma SetLedsLightsOne(bank: LedBank, active: int, duty: int)
    requires 1 <= active <= 3 && ValidDuty(duty)
    ensures WriteAll(bank, SetLeds(active, duty)) == LedBank(
      Configure(DutyTiming(Share(active, duty, 1)).value),
      Configure(DutyTiming(Share(active, duty, 2)).value),
      Configure(DutyTiming(Share(active, duty, 3)).value))
  {
    WriteThree(bank, Share(active, duty, 1), Share(active, duty, 2), Share(active, duty, 3));
  }

  /** One iteration of the loop for a speed 0..99: LED (level / 5) + 1
      shows the duty of level mod 5 and the other two are held off. */
  lemma IterationLightsSelected(bank: LedBank, speed: int)
    requires 0 <= speed <= 99
    ensures Level(speed).Some? && 0 <= Level(speed).value <= 14
    ensures var level := Level(speed).value;
      var led := level / 5 + 1;
      var after := WriteAll(bank, SetLeds(led, LevelToDuty(level % 5)));
      && Led(after, led) == Configure(DutyTiming(LevelToDuty(level % 5)).value)
      && (forall n :: 1 <= n <= 3 && n != led ==> Led(after, n).on == 0)
  {
    SelectRanges(speed);
    var level := Level(speed).value;
    var led := level / 5 + 1;
    SetLedsLightsOne(bank, led, LevelToDuty(level % 5));
    assert DutyTiming(0).value.on == 0;
  }
}

=== FILE: poller.dfy ===
/** The 1 ms button poll (`btn_poll_cb`) of the char-device and sysfs
    drivers: falling-edge detection on the two sampled input levels, the
    alternation filter `last_button_pressed`, and the shared press log it
    feeds. The register read becomes the two sampled levels (true = 1). */
module Poller {
  import opened Common
  import opened PressLog

  /** Driver-global state touched by the poll and by `calculate_speed`. */
  datatype Speedometer = Speedometer(
    lastBtn1: bool,          // last_btn1 (true = 1, released)
    lastBtn2: bool,          // last_btn2
    lastButtonPressed: int,  // 0 = none, 1 = BTN1, 2 = BTN2
    log: Log,                // press_events[0..press_idx)
    speed: int)              // last computed speed

  /** Module load: both lines released, no button accepted, empty log. */
  const Initial: Speedometer := Speedometer(true, true, 0, [], 0)

  predicate FallingEdge(previous: bool, sampled: bool)
  {
    previous && !sampled
  }

  /** The alternation filter: a press of `button` is recorded only when the
      last accepted button is a different one. */
  function Offer(s: Speedometer, button: int, clock: int): (r: Speedometer)
    requires |s.log| <= MAX_PRESSES
    ensures |r.log| <= MAX_PRESSES
    ensures r.lastButtonPressed == button
    ensures r.lastBtn1 == s.lastBtn1 && r.lastBtn2 == s.lastBtn2 && r.speed == s.speed
    ensures s.lastButtonPressed == button ==> r == s
    ensures s.lastButtonPressed != button ==> r.log == Record(s.log, Press(clock, button))
  {
    if s.lastButtonPressed != button then
      s.(log := Record(s.log, Press(clock, button)), lastButtonPressed := button)
    else s
  }

  /** One poll tick with sampled levels btn1, btn2 (BTN1 checked first). */
  function Poll(s: Speedometer, btn1: bool, btn2: bool, clock: int): (r: Speedometer)
    requires |s.log| <= MAX_PRESSES
    ensures |r.log| <= MAX_PRESSES
    ensures r.lastBtn1 == btn1 && r.lastBtn2 == btn2
    ensures r.speed == s.speed
    ensures r.lastButtonPressed ==
      if FallingEdge(s.lastBtn2, btn2) then 2
      else if FallingEdge(s.lastBtn1, btn1) then 1
      else s.lastButtonPressed
    ensures !FallingEdge(s.lastBtn1, btn1) && !FallingEdge(s.lastBtn2, btn2) ==> r.log == s.log
  {
    var s1 := if FallingEdge(s.lastBtn1, btn1) then Offer(s, 1, clock) else s;
    var s2 := if FallingEdge(s.lastBtn2, btn2) then Offer(s1, 2, clock) else s1;
    s2.(lastBtn1 := btn1, lastBtn2 := btn2)
  }

  /** `calculate_speed` on the driver state. */
  function SpeedStep(s: Speedometer, clock: int): (r: Speedometer)
    ensures r.lastBtn1 == s.lastBtn1 && r.lastBtn2 == s.lastBtn2
    ensures r.lastButtonPressed == s.lastButtonPressed
    ensures r.log == Purge(s.log, clock)
    ensures r.speed == Speed(r.log)
  {
    var res := CalculateSpeed(s.log, clock);
    s.(log := res.log, speed := res.speed)
  }

  /** What the drivers' independent contexts do to this state: a poll tick
      or a speed read (`device_read`, `device_open`, `speed_show`). */
  datatype Step = PollTick(btn1: bool, btn2: bool, clock: int) | SpeedRead(clock: int)

  function Apply(s: Speedometer, step: Step): (r: Speedometer)
    requires |s.log| <= MAX_PRESSES
    ensures |r.log| <= MAX_PRESSES
  {
    match step
    case PollTick(b1, b2, c) => Poll(s, b1, b2, c)
    case SpeedRead(c) => SpeedStep(s, c)
  }

  function Run(s: Speedometer, steps: seq<Step>): (r: Speedometer)
    requires |s.log| <= MAX_PRESSES
    ensures |r.log| <= MAX_PRESSES
    decreases |steps|
  {
    if |steps| == 0 then s else Run(Apply(s, steps[0]), steps[1..])
  }

  /** The invariant kept by every step: the log is bounded, holds only ids 1
      and 2, alternates, and ends with the last accepted button. */
  predicate Inv(s: Speedometer)
  {
    && |s.log| <= MAX_PRESSES
    && s.lastButtonPressed in {0, 1, 2}
    && (forall i :: 0 <= i < |s.log| ==> s.log[i].buttonId in {1, 2})
    && Alternating(s.log)
    && (|s.log| > 0 ==> s.log[|s.log| - 1].buttonId == s.lastButtonPressed)
  }

  lemma InitialInv()
    ensures Inv(Initial)
  {
  }

  /** Appending an event whose id differs from the last keeps the log
      alternating with ids 1 and 2. */
  lemma AppendAlternating(log: Log, e: ButtonEvent)
    requires Alternating(log) && forall i :: 0 <= i < |log| ==> log[i].buttonId in {1, 2}
    requires e.buttonId in {1, 2} && (|log| > 0 ==> log[|log| - 1].buttonId != e.buttonId)
    ensures Alternating(log + [e]) && forall i :: 0 <= i < |log + [e]| ==> (log + [e])[i].buttonId in {1, 2}
  {
    var t := log + [e];
    forall i | 0 < i < |t| ensures t[i - 1].buttonId != t[i].buttonId {
      if i < |log| {
        assert t[i - 1] == log[i - 1] && t[i] == log[i];
      }
    }
  }

  /** Dropping the oldest event keeps the log alternating with ids 1 and 2. */
  lemma TailAlternating(log: Log)
    requires |log| > 0
    requires Alternating(log) && forall i :: 0 <= i < |log| ==> log[i].buttonId in {1, 2}
    ensures Alternating(log[1..]) && forall i :: 0 <= i < |log[1..]| ==> log[1..][i].buttonId in {1, 2}
  {
    var t := log[1..];
    forall i | 0 < i < |t| ensures t[i - 1].buttonId != t[i].buttonId {
      assert t[i - 1] == log[i] && t[i] == log[i + 1];
    }
  }

  lemma OfferPreservesInv(s: Speedometer, button: int, clock: int)
    requires Inv(s)
    requires button in {1, 2}
    ensures Inv(Offer(s, button, clock))
  {
    if s.lastButtonPressed != button {
      var e := Stamp(Press(clock, button));
      var r := Offer(s, button, clock);
      if |s.log| < MAX_PRESSES {
        assert r.log == s.log + [e];
        AppendAlternating(s.log, e);
      } else {
        var tail := s.log[1..];
        assert r.log == tail + [e];
        TailAlternating(s.log);
        assert tail[|tail| - 1] == s.log[|s.log| - 1];
        AppendAlternating(tail, e);
      }
    }
  }

  /** The invariant does not look at the remembered input levels. */
  lemma InvIgnoresLevels(s: Speedometer, btn1: bool, btn2: bool)
    requires Inv(s)
    ensures Inv(s.(lastBtn1 := btn1, lastBtn2 := btn2))
  {
  }

  lemma PollPreservesInv(s: Speedometer, btn1: bool, btn2: bool, clock: int)
    requires Inv(s)
    ensures Inv(Poll(s, btn1, btn2, clock))
  {
    var s1 := if FallingEdge(s.lastBtn1, btn1) then Offer(s, 1, clock) else s;
    assert Inv(s1) by {
      if FallingEdge(s.lastBtn1, btn1) { OfferPreservesInv(s, 1, clock); }
    }
    var s2 := if FallingEdge(s.lastBtn2, btn2) then Offer(s1, 2, clock) else s1;
    assert Inv(s2) by {
      if FallingEdge(s.lastBtn2, btn2) { OfferPreservesInv(s1, 2, clock); }
    }
    assert Poll(s, btn1, btn2, clock) == s2.(lastBtn1 := btn1, lastBtn2 := btn2);
    InvIgnoresLevels(s2, btn1, btn2);
  }

  /** Any suffix of a log alternating with ids 1 and 2 is one too. */
  lemma SuffixAlternating(log: Log, d: nat)
    requires d <= |log|
    requires Alternating(log) && forall i :: 0 <= i < |log| ==> log[i].buttonId in {1, 2}
    ensures Alternating(log[d..]) && forall i :: 0 <= i < |log[d..]| ==> log[d..][i].buttonId in {1, 2}
  {
    var t := log[d..];
    forall i | 0 < i < |t| ensures t[i - 1].buttonId != t[i].buttonId {
      assert t[i - 1] == log[d + i - 1] && t[i] == log[d + i];
    }
    forall i | 0 <= i < |t| ensures t[i].buttonId in {1, 2} {
      assert t[i] == log[d + i];
    }
  }

  lemma SpeedStepPreservesInv(s: Speedometer, clock: int)
    requires Inv(s)
    ensures Inv(SpeedStep(s, clock))
  {
    var r := SpeedStep(s, clock);
    var d := |s.log| - |r.log|;
    assert r.log == s.log[d..];
    SuffixAlternating(s.log, d);
    if |r.log| > 0 {
      assert r.log[|r.log| - 1] == s.log[|s.log| - 1];
    }
  }

  /** The invariant holds after any interleaving of poll ticks and speed reads. */
  lemma {:induction false} RunPreservesInv(s: Speedometer, steps: seq<Step>)
    requires Inv(s)
    ensures Inv(Run(s, steps))
    decreases |steps|
  {
    if |steps| > 0 {
      match steps[0] {
        case PollTick(b1, b2, c) => PollPreservesInv(s, b1, b2, c);
        case SpeedRead(c) => SpeedStepPreservesInv(s, c);
      }
      RunPreservesInv(Apply(s, steps[0]), steps[1..]);
    }
  }

  /** In every reachable state a speed read reports exactly the number of
      retained presses: each of them is a button change. */
  lemma ReachableSpeedIsRetainedLength(steps: seq<Step>, clock: int)
    ensures var r := SpeedStep(Run(Initial, steps), clock); r.speed == |r.log|
  {
    InitialInv();
    RunPreservesInv(Initial, steps);
    var s := Run(Initial, steps);
    SpeedStepPreservesInv(s, clock);
    var r := SpeedStep(s, clock);
    SpeedIsLengthIff(r.log);
  }

  /** The accepted id stream: `offered` with every id equal to its
      predecessor (or, for the first, to `last`) removed. */
  function Collapse(offered: seq<int>, last: int): (r: seq<int>)
    ensures |r| <= |offered|
    decreases |offered|
  {
    if |offered| == 0 then []
    else if offered[0] == last then Collapse(offered[1..], last)
    else [offered[0]] + Collapse(offered[1..], offered[0])
  }

  /** Offers each press in order through the filter. */
  function OfferAll(s: Speedometer, offered: seq<int>, clock: int): (r: Speedometer)
    requires |s.log| <= MAX_PRESSES
    ensures |r.log| <= MAX_PRESSES
    decreases |offered|
  {
    if |offered| == 0 then s else OfferAll(Offer(s, offered[0], clock), offered[1..], clock)
  }

  function Ids(log: Log): (ids: seq<int>)
    ensures |ids| == |log|
    ensures forall i :: 0 <= i < |log| ==> ids[i] == log[i].buttonId
  {
    if |log| == 0 then [] else [log[0].buttonId] + Ids(log[1..])
  }

  lemma IdsAppend(a: Log, b: Log)
    ensures Ids(a + b) == Ids(a) + Ids(b)
  {
    var l, r := Ids(a + b), Ids(a) + Ids(b);
    forall i | 0 <= i < |l| ensures l[i] == r[i] {
      if i < |a| {
        assert (a + b)[i] == a[i];
      } else {
        assert (a + b)[i] == b[i - |a|];
      }
    }
  }

  /** Below capacity, one offer appends the id exactly when it differs
      from the last accepted one. */
  lemma OfferIds(s: Speedometer, b: int, clock: int)
    requires |s.log| < MAX_PRESSES
    ensures Ids(Offer(s, b, clock).log) == Ids(s.log) + (if s.lastButtonPressed == b then [] else [b])
  {
    if s.lastButtonPressed != b {
      var e := Stamp(Press(clock, b));
      assert Offer(s, b, clock).log == s.log + [e];
      IdsAppend(s.log, [e]);
      assert Ids([e]) == [b];
    } else {
      assert Ids(s.log) + [] == Ids(s.log);
    }
  }

  /** Below capacity, the filter appends to the log exactly the offered ids
      with repeats removed. */
  lemma {:induction false} OfferAllCollapses(s: Speedometer, offered: seq<int>, clock: int)
    requires |s.log| + |offered| <= MAX_PRESSES
    ensures Ids(OfferAll(s, offered, clock).log) == Ids(s.log) + Collapse(offered, s.lastButtonPressed)
    decreases |offered|
  {
    if |offered| > 0 {
      var b := offered[0];
      var s1 := Offer(s, b, clock);
      var x := if s.lastButtonPressed == b then [] else [b];
      OfferAllCollapses(s1, offered[1..], clock);
      OfferIds(s, b, clock);
      assert Collapse(offered, s.lastButtonPressed) == x + Collapse(offered[1..], b);
      AppendAssoc(Ids(s.log), x, Collapse(offered[1..], b));
    } else {
      assert Ids(s.log) + [] == Ids(s.log);
    }
  }

  /** The falling edges of one tick, in the order the poll checks them:
      BTN1 before BTN2. */
  function Edges(s: Speedometer, btn1: bool, btn2: bool): (ids: seq<int>)
    ensures |ids| <= 2
    ensures FallingEdge(s.lastBtn1, btn1) <==> 1 in ids
    ensures FallingEdge(s.lastBtn2, btn2) <==> 2 in ids
    ensures forall i, j :: 0 <= i < j < |ids| ==> ids[i] < ids[j]
    ensures forall x :: x in ids ==> x == 1 || x == 2
  {
    (if FallingEdge(s.lastBtn1, btn1) then [1] else []) + (if FallingEdge(s.lastBtn2, btn2) then [2] else [])
  }

  /** A poll tick offers every button with a falling edge to the filter,
      BTN1 first, and then remembers the sampled levels: each accepted press
      goes through `Record`, at capacity as well. */
  lemma PollOffersEdges(s: Speedometer, btn1: bool, btn2: bool, clock: int)
    requires |s.log| <= MAX_PRESSES
    ensures Poll(s, btn1, btn2, clock) ==
      OfferAll(s, Edges(s, btn1, btn2), clock).(lastBtn1 := btn1, lastBtn2 := btn2)
  {
    var e := Edges(s, btn1, btn2);
    if FallingEdge(s.lastBtn1, btn1) {
      var s1 := Offer(s, 1, clock);
      if FallingEdge(s.lastBtn2, btn2) {
        assert e == [1, 2] && e[1..] == [2] && [2][1..] == [];
        assert OfferAll(s, e, clock) == OfferAll(s1, [2], clock);
        assert OfferAll(s1, [2], clock) == Offer(s1, 2, clock);
      } else {
        assert e == [1] && e[1..] == [];
        assert OfferAll(s, e, clock) == s1;
      }
    } else if FallingEdge(s.lastBtn2, btn2) {
      assert e == [2] && e[1..] == [];
      assert OfferAll(s, e, clock) == Offer(s, 2, clock);
    } else {
      assert e == [];
    }
  }

  /** Below capacity, the ids a tick adds to the log are its falling edges
      with every repeat of the last accepted button removed: an edge of a
      button other than the last accepted one is recorded, and only such an
      edge is. */
  lemma PollRecordsAcceptedEdges(s: Speedometer, btn1: bool, btn2: bool, clock: int)
    requires |s.log| + |Edges(s, btn1, btn2)| <= MAX_PRESSES
    ensures Ids(Poll(s, btn1, btn2, clock).log) ==
      Ids(s.log) + Collapse(Edges(s, btn1, btn2), s.lastButtonPressed)
  {
    PollOffersEdges(s, btn1, btn2, clock);
    OfferAllCollapses(s, Edges(s, btn1, btn2), clock);
  }

  lemma CollapseExample()
    ensures Collapse([1, 1, 2, 1, 1], 0) == [1, 2, 1]
  {
    assert [1, 1][1..] == [1];
    assert Collapse([1], 1) == [];
    assert Collapse([1, 1], 1) == [];
    assert Collapse([1, 1], 2) == [1];
    assert [2, 1, 1][1..] == [1, 1];
    assert Collapse([2, 1, 1], 1) == [2, 1];
    assert [1, 2, 1, 1][1..] == [2, 1, 1];
    assert Collapse([1, 2, 1, 1], 1) == [2, 1];
    assert [1, 1, 2, 1, 1][1..] == [1, 2, 1, 1];
  }

  /** Presses 1, 1, 2, 1, 1 from the initial state are accepted as 1, 2, 1. */
  lemma AlternationExample(clock: int)
    ensures Ids(OfferAll(Initial, [1, 1, 2, 1, 1], clock).log) == [1, 2, 1]
  {
    OfferAllCollapses(Initial, [1, 1, 2, 1, 1], clock);
    assert Ids(Initial.log) == [];
    CollapseExample();
  }
}

=== FILE: press_buffer.dfy ===
/** The press log as the drivers store it: a fixed array of MAX_PRESSES
    slots and the counter `press_idx`, with `record_press` and
    `calculate_speed` written as the loops of the C code. Each method is
    proved to compute what PressLog defines on the filled prefix. */
module PressBuffer {
  import opened Common
  import opened PressLog

  datatype Buffer = Buffer(slots: seq<ButtonEvent>, pressIdx: int)
  {
    predicate Valid()
    {
      |slots| == MAX_PRESSES && 0 <= pressIdx <= MAX_PRESSES
    }

    /** The events in use, oldest first. */
    function View(): Log
      requires Valid()
    {
      slots[..pressIdx]
    }
  }

  /** `record_press` on the array. */
  method RecordPress(b: Buffer, clock: int, buttonId: int) returns (r: Buffer)
    requires b.Valid()
    ensures r.Valid()
    ensures r.View() == Record(b.View(), Press(clock, buttonId))
  {
    var nowSec := ToU32(clock);
    var slots := b.slots;
    if b.pressIdx < MAX_PRESSES {
      slots := slots[b.pressIdx := ButtonEvent(nowSec, buttonId)];
      r := Buffer(slots, b.pressIdx + 1);
      assert r.View() == b.View() + [ButtonEvent(nowSec, buttonId)];
    } else {
      var i := 1;
      while i < MAX_PRESSES
        invariant 1 <= i <= MAX_PRESSES
        invariant |slots| == MAX_PRESSES
        invariant forall k :: 0 <= k < i - 1 ==> slots[k] == b.slots[k + 1]
        invariant forall k :: i - 1 <= k < MAX_PRESSES ==> slots[k] == b.slots[k]
      {
        slots := slots[i - 1 := slots[i]];
        i := i + 1;
      }
      slots := slots[MAX_PRESSES - 1 := ButtonEvent(nowSec, buttonId)];
      r := Buffer(slots, b.pressIdx);
      assert r.View() == b.View()[1..] + [ButtonEvent(nowSec, buttonId)];
    }
  }

  /** The first loop of `calculate_speed`: the index of the first slot
      aged at most 10 s, or `press_idx` when there is none. */
  method FindStart(b: Buffer, nowSec: int) returns (startIdx: int)
    requires b.Valid()
    ensures startIdx == FirstFresh(b.View(), nowSec)
  {
    startIdx := b.pressIdx;
    var i := 0;
    while i < b.pressIdx
      invariant 0 <= i <= b.pressIdx
      invariant forall k :: 0 <= k < i ==> !Fresh(nowSec, b.slots[k])
      invariant startIdx == b.pressIdx
    {
      if Age(nowSec, b.slots[i].timestamp) <= WINDOW_SECONDS {
        startIdx := i;
        break;
      }
      i := i + 1;
    }
    FirstFreshUnique(b.View(), nowSec, startIdx);
  }

  /** The compaction of `calculate_speed`: slots from `startIdx` on are
      moved to the front; a start past every slot empties the buffer. */
  method Compact(b: Buffer, startIdx: int) returns (r: Buffer)
    requires b.Valid() && 0 <= startIdx <= b.pressIdx
    ensures r.Valid()
    ensures r.View() == b.View()[startIdx..]
  {
    var slots := b.slots;
    var pressIdx := b.pressIdx;
    if startIdx != 0 && startIdx < pressIdx {
      var newIdx := 0;
      var i := startIdx;
      while i < pressIdx
        invariant startIdx <= i <= pressIdx
        invariant newIdx == i - startIdx
        invariant |slots| == MAX_PRESSES
        invariant forall k :: 0 <= k < newIdx ==> slots[k] == b.slots[startIdx + k]
        invariant forall k :: i <= k < MAX_PRESSES ==> slots[k] == b.slots[k]
      {
        slots := slots[newIdx := slots[i]];
        newIdx := newIdx + 1;
        i := i + 1;
      }
      pressIdx := newIdx;
    } else if startIdx == pressIdx {
      pressIdx := 0;
    }
    r := Buffer(slots, pressIdx);
    assert r.View() == b.View()[startIdx..];
  }

  /** The counting loop of `calculate_speed`: button-id changes among the
      slots in use, starting from the sentinel 0. */
  method CountChanges(r: Buffer) returns (count: int)
    requires r.Valid()
    ensures count == Speed(r.View())
  {
    count := 0;
    var lastButton := 0;
    var i := 0;
    while i < r.pressIdx
      invariant 0 <= i <= r.pressIdx
      invariant count + Transitions(r.slots[i..r.pressIdx], lastButton) == Speed(r.View())
    {
      assert r.slots[i..r.pressIdx][1..] == r.slots[i + 1..r.pressIdx];
      if r.slots[i].buttonId != lastButton {
        count := count + 1;
        lastButton := r.slots[i].buttonId;
      }
      i := i + 1;
    }
  }

  /** `calculate_speed` on the array: find the first fresh slot, compact the
      retained slots to the front, then count button-id changes. */
  method CalculateSpeed(b: Buffer, clock: int) returns (r: Buffer, speed: int)
    requires b.Valid()
    ensures r.Valid()
    ensures r.View() == Purge(b.View(), clock)
    ensures speed == Speed(r.View())
  {
    var startIdx := FindStart(b, ToU32(clock));
    r := Compact(b, startIdx);
    speed := CountChanges(r);
  }

  /** The first fresh index is determined by its two defining properties. */
  lemma FirstFreshUnique(log: Log, nowSec: int, k: int)
    requires 0 <= k <= |log|
    requires forall i :: 0 <= i < k ==> !Fresh(nowSec, log[i])
    requires k < |log| ==> Fresh(nowSec, log[k])
    ensures k == FirstFresh(log, nowSec)
  {
  }
}

=== FILE: press_log.dfy ===
/** The button-press log shared by the char-device and sysfs drivers
    (`record_press` and `calculate_speed`), as a sequence of events, oldest
    first. The 100-slot array with its `press_idx` counter is in PressBuffer,
    which is proved to compute exactly what this module defines. */
module PressLog {
  import opened Common

  /** Capacity of the log (MAX_PRESSES). */
  const MAX_PRESSES: int := 100
  /** Events whose age is at most this many seconds are kept. */
  const WINDOW_SECONDS: int := 10

  /** One accepted press: a uint32 seconds timestamp and a button id. */
  datatype ButtonEvent = ButtonEvent(timestamp: int, buttonId: int)

  type Log = seq<ButtonEvent>

  /** A press as offered to the log: the wall clock in seconds (before
      truncation to uint32) and the button id. */
  datatype Press = Press(clock: int, buttonId: int)

  function Stamp(p: Press): (e: ButtonEvent)
    ensures IsU32(e.timestamp) && e.buttonId == p.buttonId
  {
    ButtonEvent(ToU32(p.clock), p.buttonId)
  }

  /** The n most recent events of s. */
  function Newest(s: Log, n: nat): (r: Log)
    ensures |r| == if |s| <= n then |s| else n
    ensures r == s[|s| - |r|..]
  {
    if |s| <= n then s else s[|s| - n..]
  }

  /** `record_press`: append below capacity; at capacity drop slot 0,
      shift the rest down and write the new event last. */
  function Record(log: Log, p: Press): (r: Log)
    requires |log| <= MAX_PRESSES
    ensures |r| <= MAX_PRESSES
    ensures r == Newest(log + [Stamp(p)], MAX_PRESSES)
  {
    if |log| < MAX_PRESSES then log + [Stamp(p)] else log[1..] + [Stamp(p)]
  }

  /** Records every press of ps in order. */
  function RecordAll(log: Log, ps: seq<Press>): (r: Log)
    requires |log| <= MAX_PRESSES
    ensures |r| <= MAX_PRESSES
    decreases |ps|
  {
    if |ps| == 0 then log else RecordAll(Record(log, ps[0]), ps[1..])
  }

  function StampAll(ps: seq<Press>): (es: Log)
    ensures |es| == |ps|
    ensures forall i :: 0 <= i < |ps| ==> es[i] == Stamp(ps[i])
  {
    if |ps| == 0 then [] else [Stamp(ps[0])] + StampAll(ps[1..])
  }

  /** Taking the newest n, appending, and taking the newest n again is the
      same as appending first. */
  lemma NewestAppend(s: Log, t: Log, n: nat)
    ensures Newest(Newest(s, n) + t, n) == Newest(s + t, n)
  {
    var a := Newest(s, n);
    assert a + t == (s + t)[|s| - |a|..];
  }

  /** Recording one press and then appending more events keeps the same
      newest events as appending everything to the old log. */
  lemma RecordThenAppend(log: Log, p: Press, rest: Log)
    requires |log| <= MAX_PRESSES
    ensures Newest(Record(log, p) + rest, MAX_PRESSES) == Newest(log + ([Stamp(p)] + rest), MAX_PRESSES)
  {
    NewestAppend(log + [Stamp(p)], rest, MAX_PRESSES);
    assert log + [Stamp(p)] + rest == log + ([Stamp(p)] + rest);
  }

  /** After any sequence of presses the log holds exactly the 100 most
      recent events, oldest first: capacity eviction loses only the oldest. */
  lemma {:induction false} RecordAllKeepsNewest(log: Log, ps: seq<Press>)
    requires |log| <= MAX_PRESSES
    ensures RecordAll(log, ps) == Newest(log + StampAll(ps), MAX_PRESSES)
    decreases |ps|
  {
    if |ps| == 0 {
      assert log + StampAll(ps) == log;
    } else {
      RecordAllKeepsNewest(Record(log, ps[0]), ps[1..]);
      RecordThenAppend(log, ps[0], StampAll(ps[1..]));
    }
  }

  /** Age of an event in whole seconds, by uint32 subtraction: an event
      dated after `now` wraps round to a huge age. */
  function Age(nowSec: int, timestamp: int): (a: int)
    ensures IsU32(a)
    ensures (nowSec - timestamp - a) % U32_MODULUS == 0
  {
    ToU32(nowSec - timestamp)
  }

  predicate Fresh(nowSec: int, e: ButtonEvent)
  {
    Age(nowSec, e.timestamp) <= WINDOW_SECONDS
  }

  /** Index of the first fresh event, or |log| if there is none. */
  function FirstFresh(log: Log, nowSec: int): (k: nat)
    ensures k <= |log|
    ensures forall i :: 0 <= i < k ==> !Fresh(nowSec, log[i])
    ensures k < |log| ==> Fresh(nowSec, log[k])
  {
    if |log| == 0 then 0
    else if Fresh(nowSec, log[0]) then 0
    else 1 + FirstFresh(log[1..], nowSec)
  }

  /** The purge step of `calculate_speed`: drop the leading run of stale
      events, keep the rest in order. */
  function Purge(log: Log, clock: int): (r: Log)
    ensures |r| <= |log|
    ensures r == log[|log| - |r|..]
    ensures forall i :: 0 <= i < |log| - |r| ==> !Fresh(ToU32(clock), log[i])
    ensures |r| > 0 ==> Fresh(ToU32(clock), r[0])
  {
    log[FirstFresh(log, ToU32(clock))..]
  }

  /** Number of events whose button id differs from the one before, where
      `last` stands for the id before the first event. */
  function Transitions(log: Log, last: int): (n: nat)
    ensures n <= |log|
  {
    if |log| == 0 then 0
    else (if log[0].buttonId != last then 1 else 0) + Transitions(log[1..], log[0].buttonId)
  }

  /** The speed: button-id changes in the log, counted from the sentinel 0. */
  function Speed(log: Log): (n: nat)
    ensures n <= |log|
    ensures |log| > 0 && log[0].buttonId != 0 ==> 1 <= n
  {
    Transitions(log, 0)
  }

  /** Adjacent events carry different button ids. */
  predicate Alternating(log: Log)
  {
    forall i :: 0 < i < |log| ==> log[i - 1].buttonId != log[i].buttonId
  }

  /** Every event counts as a change exactly when the log alternates and
      its first id differs from `last`. */
  lemma {:induction false} TransitionsIsLengthIff(log: Log, last: int)
    ensures Transitions(log, last) == |log| <==>
      (Alternating(log) && (|log| > 0 ==> log[0].buttonId != last))
    decreases |log|
  {
    if |log| > 0 {
      var t := log[1..];
      TransitionsIsLengthIff(t, log[0].buttonId);
      if Alternating(log) {
        assert Alternating(t) by {
          forall i | 0 < i < |t| ensures t[i - 1].buttonId != t[i].buttonId {
            assert t[i - 1] == log[i] && t[i] == log[i + 1];
          }
        }
      }
      if Alternating(t) && (|t| > 0 ==> t[0].buttonId != log[0].buttonId) {
        assert Alternating(log) by {
          forall i | 0 < i < |log| ensures log[i - 1].buttonId != log[i].buttonId {
            if i > 1 { assert log[i - 1] == t[i - 2] && log[i] == t[i - 1]; }
          }
        }
      }
    }
  }

  /** The speed equals the number of events exactly when the log alternates
      and starts with a real (non-zero) button id. */
  lemma SpeedIsLengthIff(log: Log)
    ensures Speed(log) == |log| <==>
      (Alternating(log) && (|log| > 0 ==> log[0].buttonId != 0))
  {
    TransitionsIsLengthIff(log, 0);
  }

  /** Result of `calculate_speed`: the retained log and the speed. */
  datatype SpeedResult = SpeedResult(log: Log, speed: nat)

  function CalculateSpeed(log: Log, clock: int): (r: SpeedResult)
    ensures r.speed <= |r.log| <= |log|
  {
    var kept := Purge(log, clock);
    SpeedResult(kept, Speed(kept))
  }

  /** Purging twice at the same time removes nothing the second time. */
  lemma PurgeIdempotent(log: Log, clock: int)
    ensures Purge(Purge(log, clock), clock) == Purge(log, clock)
  {
    var kept := Purge(log, clock);
    assert FirstFresh(kept, ToU32(clock)) == 0;
  }

  /** Two `calculate_speed` calls at the same time agree. */
  lemma CalculateSpeedIdempotent(log: Log, clock: int)
    ensures CalculateSpeed(CalculateSpeed(log, clock).log, clock) == CalculateSpeed(log, clock)
  {
    PurgeIdempotent(log, clock);
  }

  /** If nothing is fresh the log is emptied and the speed is 0. */
  lemma AllStaleEmpties(log: Log, clock: int)
    requires forall i :: 0 <= i < |log| ==> !Fresh(ToU32(clock), log[i])
    ensures CalculateSpeed(log, clock) == SpeedResult([], 0)
  {
  }

  /** On real clocks a <= b, the uint32 age is the true elapsed time for
      any elapsed time below 2^32, wherever the truncation boundary falls. */
  lemma AgeOfTruncatedClocks(a: int, b: int)
    requires a <= b < a + U32_MODULUS
    ensures Age(ToU32(b), ToU32(a)) == b - a
  {
  }

  /** An event dated after `now` by less than 2^32 - 10 seconds is stale. */
  lemma FutureEventIsStale(nowSec: int, e: ButtonEvent)
    requires IsU32(nowSec) && IsU32(e.timestamp)
    requires nowSec < e.timestamp < nowSec + U32_MODULUS - WINDOW_SECONDS
    ensures !Fresh(nowSec, e)
  {
  }

  /** A stale event at the front of the log is dropped by the purge: the
      result is what purging the events behind it gives. */
  lemma StaleFrontIsDropped(clock: int, e: ButtonEvent, rest: Log)
    requires !Fresh(ToU32(clock), e)
    ensures Purge([e] + rest, clock) == Purge(rest, clock)
  {
    assert ([e] + rest)[1..] == rest;
  }

  /** The purge only drops a leading run: a stale event behind a fresh one
      is kept, and the speed counts it. */
  lemma StaleBehindFreshIsKept(clock: int, f: ButtonEvent, e: ButtonEvent)
    requires Fresh(ToU32(clock), f) && !Fresh(ToU32(clock), e)
    requires f.buttonId != 0 && e.buttonId != f.buttonId
    ensures Purge([f, e], clock) == [f, e]
    ensures Speed(Purge([f, e], clock)) == 2
  {
    var log := [f, e];
    assert log[0] == f;
    assert FirstFresh(log, ToU32(clock)) == 0;
    assert log[1..] == [e] && [e][1..] == [];
    assert Transitions([e], f.buttonId) == 1;
  }

  /** The log after presses 1, 2, 1 at t, t+1, t+2 from empty. */
  lemma ExampleLog(t: int)
    requires 0 <= t && t + 2 < U32_MODULUS
    ensures RecordAll([], [Press(t, 1), Press(t + 1, 2), Press(t + 2, 1)])
         == [ButtonEvent(t, 1), ButtonEvent(t + 1, 2), ButtonEvent(t + 2, 1)]
  {
    var ps := [Press(t, 1), Press(t + 1, 2), Press(t + 2, 1)];
    var e0, e1, e2 := ButtonEvent(t, 1), ButtonEvent(t + 1, 2), ButtonEvent(t + 2, 1);
    assert Record([], ps[0]) == [e0];
    assert Record([e0], ps[1]) == [e0, e1];
    assert Record([e0, e1], ps[2]) == [e0, e1, e2];
    assert ps[1..][1..] == [ps[2]];
    calc {
      RecordAll([], ps);
      RecordAll([e0], ps[1..]);
      RecordAll([e0, e1], [ps[2]]);
      RecordAll([e0, e1, e2], []);
    }
  }

  lemma SmallAge(now: int, ts: int)
    requires 0 <= ts <= now < U32_MODULUS
    ensures Age(ToU32(now), ts) == now - ts
  {
    assert ToU32(now) == now;
    assert ToU32(now - ts) == now - ts;
  }

  /** Presses 1, 2, 1 at t, t+1, t+2, read at t+5: all three are fresh
      and the speed is 3. */
  lemma WindowExampleFresh(t: int)
    requires 0 <= t && t + 13 < U32_MODULUS
    ensures CalculateSpeed(RecordAll([], [Press(t, 1), Press(t + 1, 2), Press(t + 2, 1)]), t + 5).speed == 3
  {
    ExampleLog(t);
    var e0, e1, e2 := ButtonEvent(t, 1), ButtonEvent(t + 1, 2), ButtonEvent(t + 2, 1);
    SmallAge(t + 5, t);
    assert FirstFresh([e0, e1, e2], ToU32(t + 5)) == 0;
    assert Purge([e0, e1, e2], t + 5) == [e0, e1, e2];
    assert [e0, e1, e2][1..] == [e1, e2];
    assert Transitions([e1, e2], 1) == 2;
  }

  /** Read at t+11, the first press is 11 s old and dropped while the
      second is exactly 10 s old and kept, so the speed is 2. */
  lemma WindowExampleBoundary(t: int)
    requires 0 <= t && t + 13 < U32_MODULUS
    ensures CalculateSpeed(RecordAll([], [Press(t, 1), Press(t + 1, 2), Press(t + 2, 1)]), t + 11).speed == 2
  {
    ExampleLog(t);
    var e0, e1, e2 := ButtonEvent(t, 1), ButtonEvent(t + 1, 2), ButtonEvent(t + 2, 1);
    SmallAge(t + 11, t);
    SmallAge(t + 11, t + 1);
    assert [e0, e1, e2][1..] == [e1, e2];
    assert FirstFresh([e1, e2], ToU32(t + 11)) == 0;
    assert Purge([e0, e1, e2], t + 11) == [e1, e2];
    assert [e1, e2][1..] == [e2];
    assert Transitions([e2], 2) == 1;
    assert Speed([e1, e2]) == 2;
  }

  /** Read at t+13, every press is older than 10 s and the log empties. */
  lemma WindowExampleExpired(t: int)
    requires 0 <= t && t + 13 < U32_MODULUS
    ensures CalculateSpeed(RecordAll([], [Press(t, 1), Press(t + 1, 2), Press(t + 2, 1)]), t + 13) == SpeedResult([], 0)
  {
    ExampleLog(t);
    var e0, e1, e2 := ButtonEvent(t, 1), ButtonEvent(t + 1, 2), ButtonEvent(t + 2, 1);
    SmallAge(t + 13, t);
    SmallAge(t + 13, t + 1);
    SmallAge(t + 13, t + 2);
    AllStaleEmpties([e0, e1, e2], t + 13);
  }
}

=== FILE: pwm.dfy ===
/** Software PWM for one LED: the duty table that turns a percentage into
    (on, off) nanosecond durations against a 2 ms period, and the timer
    callback `ledN_cb` that flips the LED and re-arms itself. The hrtimer is
    not modelled: a firing returns the delay it re-arms with. */
module Pwm {
  import opened Common

  const TIME_100: int := 2000000  // the 2.0 ms period
  const TIME_75: int := 1500000
  const TIME_50: int := 1000000
  const TIME_25: int := 500000
  const TIME_0: int := 0

  /** The duty percentages the drivers accept. */
  predicate ValidDuty(duty: int)
  {
    duty == 0 || duty == 25 || duty == 50 || duty == 75 || duty == 100
  }

  datatype Timing = Timing(on: int, off: int)

  /** The `switch (duty)` of `device_write` / `led1_store`: None is the
      `default` branch that returns -EINVAL. On a valid duty the on time is
      that percentage of the period and the two times fill the period. */
  function DutyTiming(duty: int): (r: Option<Timing>)
    ensures r.Some? <==> ValidDuty(duty)
    ensures r.Some? ==> r.value.on + r.value.off == TIME_100
    ensures r.Some? ==> r.value.on * 100 == duty * TIME_100
  {
    match duty
    case 0 => Some(Timing(TIME_0, TIME_100))
    case 25 => Some(Timing(TIME_25, TIME_75))
    case 50 => Some(Timing(TIME_50, TIME_50))
    case 75 => Some(Timing(TIME_75, TIME_25))
    case 100 => Some(Timing(TIME_100, TIME_0))
    case _ => None
  }

  /** One LED's timing globals and logical state (`ledN_on`, `ledN_off`,
      `ledN_state`). */
  datatype Channel = Channel(on: int, off: int, state: bool)

  /** Statics at module load: zero durations, LED off. */
  const Unconfigured: Channel := Channel(0, 0, false)

  /** A configured channel: durations from the duty table, state reset to
      off; the timer is then restarted with zero delay. */
  function Configure(t: Timing): (ch: Channel)
    ensures ch.on == t.on && ch.off == t.off && !ch.state
  {
    Channel(t.on, t.off, false)
  }

  /** One firing of `ledN_cb`: the new channel, the level written to the
      LED's GPIO (set when true, clear when false), and the re-arm delay. */
  datatype Firing = Firing(channel: Channel, level: bool, delay: int)

  function Fire(ch: Channel): (f: Firing)
    ensures f.channel.state != ch.state
    ensures f.channel.on == ch.on && f.channel.off == ch.off
    ensures f.level == f.channel.state
    ensures f.delay == if f.channel.state then ch.on else ch.off
  {
    var state := !ch.state;
    Firing(Channel(ch.on, ch.off, state), state, if state then ch.on else ch.off)
  }

  /** Fires n times in a row; returns the final channel and the total of
      the re-arm delays. */
  function FireN(ch: Channel, n: nat): (r: (Channel, int))
    decreases n
  {
    if n == 0 then (ch, 0)
    else
      var f := Fire(ch);
      var rest := FireN(f.channel, n - 1);
      (rest.0, f.delay + rest.1)
  }

  /** Two firings restore the channel and take one full on + off cycle. */
  lemma FireTwice(ch: Channel)
    ensures Fire(Fire(ch).channel).channel == ch
    ensures Fire(ch).delay + Fire(Fire(ch).channel).delay == ch.on + ch.off
  {
  }

  /** After n firings the state has flipped n times, durations unchanged;
      2k firings from the off state take exactly k periods. */
  lemma {:induction false} FireNCycles(ch: Channel, n: nat)
    ensures FireN(ch, n).0 == ch.(state := if n % 2 == 0 then ch.state else !ch.state)
    ensures n % 2 == 0 ==> FireN(ch, n).1 == (n / 2) * (ch.on + ch.off)
    decreases n
  {
    if n >= 2 {
      FireNCycles(Fire(Fire(ch).channel).channel, n - 2);
      FireTwice(ch);
      assert FireN(ch, n) == (FireN(Fire(Fire(ch).channel).channel, n - 2).0,
        Fire(ch).delay + Fire(Fire(ch).channel).delay + FireN(Fire(Fire(ch).channel).channel, n - 2).1);
    } else if n == 1 {
      assert FireN(Fire(ch).channel, 0) == (Fire(ch).channel, 0);
    }
  }

  /** A channel configured from the table oscillates with the 2 ms period:
      the first firing after configuration turns the LED on for `on` ns, the
      second turns it off for `off` ns. */
  lemma ConfiguredChannelPeriod(duty: int)
    requires ValidDuty(duty)
    ensures var ch := Configure(DutyTiming(duty).value);
      && Fire(ch).level && Fire(ch).delay * 100 == duty * TIME_100
      && !Fire(Fire(ch).channel).level
      && Fire(ch).delay + Fire(Fire(ch).channel).delay == TIME_100
  {
  }

  /** At duty 0 the callback re-arms with delay 0 on every "on" firing (the
      LED is set and cleared back to back), and at duty 100 on every "off"
      firing. */
  lemma ExtremeDutiesRearmImmediately()
    ensures Fire(Configure(DutyTiming(0).value)).delay == 0
    ensures Fire(Fire(Configure(DutyTiming(100).value)).channel).delay == 0
  {
  }

  /** The three LEDs' channels. */
  datatype LedBank = LedBank(led1: Channel, led2: Channel, led3: Channel)

  const Startup: LedBank := LedBank(Unconfigured, Unconfigured, Unconfigured)

  function Led(bank: LedBank, n: int): Channel
    requires 1 <= n <= 3
  {
    if n == 1 then bank.led1 else if n == 2 then bank.led2 else bank.led3
  }
}

=== FILE: sys_client.dfy ===
/** The sysfs client (`sys/main.rs`): `map_speed_to_leds` turns the speed
    into three duties forming a bar graph of 12 quarter steps, and each loop
    iteration writes "<duty>\n" to `led1`, `led2` and `led3`. */
module SysClient {
  import opened Common
  import opened Decimal
  import opened Pwm
  import opened SysfsDevice

  type Duties = (int, int, int)

  /** `map_speed_to_leds`, arm by arm. */
  function MapSpeedToLeds(speed: nat): (r: Duties)
    ensures ValidDuty(r.0) && ValidDuty(r.1) && ValidDuty(r.2)
    ensures r.1 != 0 ==> r.0 == 100
    ensures r.2 != 0 ==> r.1 == 100
  {
    if speed == 0 then (0, 0, 0)
    else if speed <= 5 then (25, 0, 0)
    else if speed <= 10 then (50, 0, 0)
    else if speed <= 15 then (75, 0, 0)
    else if speed <= 20 then (100, 0, 0)
    else if speed <= 25 then (100, 25, 0)
    else if speed <= 30 then (100, 50, 0)
    else if speed <= 35 then (100, 75, 0)
    else if speed <= 40 then (100, 100, 0)
    else if speed <= 45 then (100, 100, 25)
    else if speed <= 50 then (100, 100, 50)
    else if speed <= 55 then (100, 100, 75)
    else if speed <= 60 then (100, 100, 100)
    else (100, 100, 100)
  }

  /** Quarter steps lit: one per started block of 5, at most 12. */
  function Units(speed: nat): (u: nat)
    ensures u <= 12
  {
    if speed > 60 then 12 else (speed + 4) / 5
  }

  /** Duty of bar segment i (0, 1, 2) when u quarter steps are lit: the
      segments fill in order, four quarters each. */
  function Segment(u: int, i: int): int
  {
    if u <= 4 * i then 0 else if u >= 4 * i + 4 then 100 else 25 * (u - 4 * i)
  }

  function BarGraph(speed: nat): Duties
  {
    var u := Units(speed);
    (Segment(u, 0), Segment(u, 1), Segment(u, 2))
  }

  /** The match table is the bar graph of ceil(speed / 5) quarter steps. */
  lemma MapIsBarGraph(speed: nat)
    ensures MapSpeedToLeds(speed) == BarGraph(speed)
  {
    if speed > 60 {
    } else if speed > 0 {
      var u := (speed + 4) / 5;
      assert 5 * u <= speed + 4 < 5 * u + 5;
    }
  }

  /** Speed 0 lights nothing; 56 and above light everything. */
  lemma MapEnds(speed: nat)
    ensures MapSpeedToLeds(0) == (0, 0, 0)
    ensures speed >= 56 ==> MapSpeedToLeds(speed) == (100, 100, 100)
  {
  }

  /** Each duty is non-decreasing in the speed. */
  lemma MapMonotone(s: nat, t: nat)
    requires s <= t
    ensures MapSpeedToLeds(s).0 <= MapSpeedToLeds(t).0
    ensures MapSpeedToLeds(s).1 <= MapSpeedToLeds(t).1
    ensures MapSpeedToLeds(s).2 <= MapSpeedToLeds(t).2
  {
    MapIsBarGraph(s);
    MapIsBarGraph(t);
    assert Units(s) <= Units(t);
  }

  /** Up to 60 the three duties add up to 25 per started block of 5. */
  lemma MapSum(speed: nat)
    requires 1 <= speed <= 60
    ensures var r := MapSpeedToLeds(speed); r.0 + r.1 + r.2 == 25 * ((speed + 4) / 5)
  {
    MapIsBarGraph(speed);
  }

  /** The text `writeln!(file, "{}", duty)` produces: the digits and a
      newline. An unbuffered file may hand them to the kernel in two
      writes; `SplitLineSameEffect` shows the handlers end up the same. */
  function DutyLine(duty: int): (line: string)
    ensures ScanOne(line) == Some(duty)
  {
    ScanOneRoundTrip(duty);
    IntToString(duty) + "\n"
  }

  /** One loop iteration against the handlers as written. */
  function LoopAsWritten(leds: LedBank, speed: nat): LedBank
  {
    var d := MapSpeedToLeds(speed);
    var l1 := Led1Store(leds, DutyLine(d.0), |DutyLine(d.0)|).leds;
    var l2 := Led2Store(l1, DutyLine(d.1), |DutyLine(d.1)|).leds;
    Led3Store(l2, DutyLine(d.2), |DutyLine(d.2)|).leds
  }

  /** As written, an iteration changes no LED's durations: only LED1's state
      is reset, so the bar graph never reaches the LEDs. */
  lemma LoopAsWrittenKeepsDurations(leds: LedBank, speed: nat)
    ensures LoopAsWritten(leds, speed) == leds.(led1 := leds.led1.(state := false))
  {
    ScanOneRoundTrip(MapSpeedToLeds(speed).0);
  }

  /** Delivering a duty line as the digits followed by a lone "\n" leaves
      the LEDs as one whole-line store does, for the handlers as written and
      for the intended ones: the second store fails and changes nothing. */
  lemma SplitLineSameEffect(leds: LedBank, n: int, duty: int, k: nat)
    requires 1 <= n <= 3
    ensures Led1Store(Led1Store(leds, IntToString(duty), k).leds, "\n", 1).leds
         == Led1Store(leds, DutyLine(duty), k).leds
    ensures Led1Store(leds, "\n", 1).ret == -EINVAL
    ensures LedStoreIntended(LedStoreIntended(leds, n, IntToString(duty), k).leds, n, "\n", 1).leds
         == LedStoreIntended(leds, n, DutyLine(duty), k).leds
  {
    DigitsAloneScan(duty);
    ScanOneRoundTrip(duty);
    NewlineScansNothing("\n");
  }

  /** The digits without their newline already read as the duty. */
  lemma DigitsAloneScan(duty: int)
    ensures ScanOne(IntToString(duty)) == Some(duty)
  {
    ScanIntRoundTrip(duty, "");
    assert IntToString(duty) + "" == IntToString(duty);
  }

  /** A lone newline holds no number. */
  lemma NewlineScansNothing(s: string)
    requires s == "\n"
    ensures ScanOne(s).None?
  {
    assert forall i :: 0 <= i < |s| ==> !IsDigit(s[i]);
  }

  /** One loop iteration against the intended handlers. */
  function LoopIntended(leds: LedBank, speed: nat): LedBank
  {
    var d := MapSpeedToLeds(speed);
    var l1 := LedStoreIntended(leds, 1, DutyLine(d.0), |DutyLine(d.0)|).leds;
    var l2 := LedStoreIntended(l1, 2, DutyLine(d.1), |DutyLine(d.1)|).leds;
    LedStoreIntended(l2, 3, DutyLine(d.2), |DutyLine(d.2)|).leds
  }

  /** With the intended handlers an iteration configures all three LEDs
      with the mapped duties, whatever they were before. */
  lemma LoopIntendedShowsBarGraph(leds: LedBank, speed: nat)
    ensures var d := MapSpeedToLeds(speed);
      LoopIntended(leds, speed) == LedBank(
        Configure(DutyTiming(d.0).value), Configure(DutyTiming(d.1).value), Configure(DutyTiming(d.2).value))
  {
    var d := MapSpeedToLeds(speed);
    ScanOneRoundTrip(d.0);
    ScanOneRoundTrip(d.1);
    ScanOneRoundTrip(d.2);
  }
}

=== FILE: sysfs_device.dfy ===
/** The control surface of the sysfs driver (`/sys/kernel/project_sys`):
    `speed_show` and the `led1`..`led3` store handlers, as written. The
    written text arrives as a string; `count` is the byte count the kernel
    passes in. */
module SysfsDevice {
  import opened Common
  import opened Decimal
  import opened Pwm
  import opened Poller

  /** A store handler's result: the LEDs afterwards and the return value. */
  datatype StoreReply = StoreReply(leds: LedBank, ret: int)

  /** `led1_store` as written: "%d" must match and the duty must be in the
      table, or it returns -EINVAL and changes nothing. On a valid duty it
      only resets `led1_state` (and restarts the timer): the durations it
      looked up are never assigned to `led1_on` / `led1_off`. */
  function Led1Store(leds: LedBank, input: string, count: int): (w: StoreReply)
    requires 0 <= count
    ensures w.ret == count || w.ret == -EINVAL
    ensures w.ret == count <==> ScanOne(input).Some? && ValidDuty(ScanOne(input).value)
    ensures w.ret != count ==> w.leds == leds
    ensures w.ret == count ==> w.leds == leds.(led1 := leds.led1.(state := false))
  {
    match ScanOne(input)
    case None => StoreReply(leds, -EINVAL)
    case Some(duty) =>
      match DutyTiming(duty)
      case None => StoreReply(leds, -EINVAL)
      case Some(_) => StoreReply(leds.(led1 := leds.led1.(state := false)), count)
  }

  /** `led2_store` and `led3_store` have empty bodies: they accept anything
      and change nothing. */
  function Led2Store(leds: LedBank, input: string, count: int): (w: StoreReply)
    ensures w.ret == count && w.leds == leds
  {
    StoreReply(leds, count)
  }

  function Led3Store(leds: LedBank, input: string, count: int): (w: StoreReply)
    ensures w.ret == count && w.leds == leds
  {
    StoreReply(leds, count)
  }

  /** The duty written has no effect on LED1's timing: two valid duties give
      the same result, and from module load LED1 keeps zero on and off
      durations whatever is stored. */
  lemma Led1StoreIgnoresDuty(leds: LedBank, d1: int, d2: int, count: nat)
    requires ValidDuty(d1) && ValidDuty(d2)
    ensures Led1Store(leds, IntToString(d1) + "\n", count) == Led1Store(leds, IntToString(d2) + "\n", count)
    ensures Led1Store(Startup, IntToString(d1) + "\n", count).leds.led1 == Unconfigured
  {
    ScanOneRoundTrip(d1);
    ScanOneRoundTrip(d2);
  }

  /** Instance: writing 50 to `led1` from module load returns the byte
      count but leaves LED1 with 0 ns on and 0 ns off, where the duty table
      gives 1 ms on and 1 ms off. */
  lemma Led1StoreFiftyExample(d: int, count: nat)
    requires d == 50
    ensures Led1Store(Startup, IntToString(d) + "\n", count).ret == count
    ensures Led1Store(Startup, IntToString(d) + "\n", count).leds.led1.on == 0
    ensures DutyTiming(d) == Some(Timing(1000000, 1000000))
  {
    ScanOneRoundTrip(d);
  }

  /** The evidently intended store for LED n (n = 1, 2, 3): validate as
      `led1_store` does, then assign the looked-up durations as the
      char-device driver's `device_write` does. */
  function LedStoreIntended(leds: LedBank, n: int, input: string, count: int): (w: StoreReply)
    requires 1 <= n <= 3 && 0 <= count
    ensures w.ret == count || w.ret == -EINVAL
    ensures w.ret == count <==> ScanOne(input).Some? && ValidDuty(ScanOne(input).value)
    ensures w.ret != count ==> w.leds == leds
    ensures w.ret == count ==>
      && Led(w.leds, n) == Configure(DutyTiming(ScanOne(input).value).value)
      && (forall m :: 1 <= m <= 3 && m != n ==> Led(w.leds, m) == Led(leds, m))
  {
    match ScanOne(input)
    case None => StoreReply(leds, -EINVAL)
    case Some(duty) =>
      match DutyTiming(duty)
      case None => StoreReply(leds, -EINVAL)
      case Some(t) =>
        if n == 1 then StoreReply(leds.(led1 := Configure(t)), count)
        else if n == 2 then StoreReply(leds.(led2 := Configure(t)), count)
        else StoreReply(leds.(led3 := Configure(t)), count)
  }

  /** Storing a valid duty through the intended handler gives LED n exactly
      the on time that percentage of the 2 ms period calls for. */
  lemma IntendedStoreSetsDuty(leds: LedBank, n: int, duty: int, count: nat)
    requires 1 <= n <= 3 && ValidDuty(duty)
    ensures var w := LedStoreIntended(leds, n, IntToString(duty) + "\n", count);
      && w.ret == count
      && Led(w.leds, n).on * 100 == duty * TIME_100
      && Led(w.leds, n).on + Led(w.leds, n).off == TIME_100
      && !Led(w.leds, n).state
  {
    ScanOneRoundTrip(duty);
  }

  /** `speed_show`: `calculate_speed`, then "%d\n" of the fresh speed; the
      return value is the number of characters printed. */
  datatype ShowReply = ShowReply(meter: Speedometer, text: string, ret: int)

  function SpeedShow(meter: Speedometer, clock: int): (r: ShowReply)
    ensures r.meter == SpeedStep(meter, clock)
    ensures ScanOne(r.text) == Some(r.meter.speed)
    ensures r.ret == |r.text|
  {
    var m := SpeedStep(meter, clock);
    ScanOneRoundTrip(m.speed);
    var text := IntToString(m.speed) + "\n";
    ShowReply(m, text, |text|)
  }
}
